=== FILE: README.md ===
# AquaWood Patagonia site logic in Dafny

A functional Dafny model of the pure logic inside the AquaWood Patagonia
marketing site, a React and TypeScript single-page application. The site
shows woodworking projects and has a small administration area. The model
covers:

- **Router** (`router.dfy`) models the hand-written hash router. The current
  path is derived from the URL fragment. A path is resolved against an
  ordered route table by first match, with exact paths and `:param`
  segments. `getParam` extracts the project id. `navigate` and `Link` write
  the fragment.
- **UrlFragment** (`url_fragment.dfy`) models how the browser stores what is
  written to `location.hash` or followed as a `#...` link. This follows the
  fragment state of the WHATWG URL Standard: tab and newline are removed,
  and the fragment percent-encode set is percent-encoded as UTF-8.
- **Translation** (`translation.dfy`) models the translation context:
  - the locale is chosen from storage among `en`, `fr` and `es`;
  - `setLocale` persists the choice;
  - the dotted-key lookup `t` walks a nested dictionary and gives back the
    key itself on any miss.
- **ProjectDetail** (`project_detail.dfy`) models the project page:
  - the carousel index and its next, previous, dot and thumbnail actions;
  - what the image area shows;
  - the meta description, which collapses white space, trims, keeps 160
    characters and falls back to a fixed text.
- **Admin** (`admin.dfy`) models the project form of the administration
  page:
  - the list of image slots, with initialisation, add and remove;
  - the checks on a chosen file;
  - the storage object name;
  - the save sequence, which filters the slots, takes one URL per slot and
    numbers the image rows from 0.
- **Projects** (`projects.dfy`) models the projects page. It groups the
  fetched image rows under their projects and renders the cards: cover
  image, link target and empty state.
- **Seo** (`seo.dfy`) models the metadata component. This covers the site
  URL without its trailing slash, relative-to-absolute URLs, and the title,
  description, canonical, image and robots fallbacks.
- **Strings** (`strings.dfy`) holds the JavaScript string operations the
  code relies on. `split` on one character is modelled exactly, with its
  inverse `join`.
- **Wrappers** holds `Option` and `Result`. **Records** holds the database
  row shapes.

All I/O is an explicit input:

- the browser's `location.hash`;
- `localStorage`, as a string map;
- the fetched rows;
- the results of the backend writes and uploads;
- the clock.

Strings are sequences of `char`, and a Dafny `char` is one Unicode scalar
value. JavaScript strings are sequences of UTF-16 code units instead, so the
two agree only on text inside the Basic Multilingual Plane.

The route table `/`, `/projects`, `/projects/:id`, `/contact`, `/login`,
`/admin` of `src/App.tsx` is used only as sample data for the hash router's
own first-match semantics. The application itself routes with a library
router, which ranks routes and redirects unknown paths. The detail page
also reads its id from that library router rather than from `getParam`, so
the lemmas about the hash router's links and `getParam` are about the hash
router alone.

## Model

| member | source | states |
|---|---|---|
| Strings.Split | src/components/Router.tsx:32-33 | `split` on one character: at least one part, no part holds the separator, and joining the parts gives the text back |
| Strings.SplitJoin | src/contexts/TranslationContext.tsx:37 | splitting a join of separator-free parts gives the parts back, so split and join are inverse |
| Strings.LastPartIsSuffix | src/components/Router.tsx:83-87 | when the separator occurs, the last part of the split is exactly the text after the last separator |
| UrlFragment.Encode | src/components/Router.tsx:79 | the fragment the browser stores holds only characters it stores verbatim, each a `%`, a hexadecimal digit or a character of the input |
| UrlFragment.EncodeAppend | src/components/Router.tsx:79 | encoding goes character by character, so it distributes over concatenation |
| UrlFragment.EncodeVerbatim | src/components/Router.tsx:79 | text made only of characters outside the fragment percent-encode set is stored unchanged |
| UrlFragment.EncodeIdempotent | src/components/Router.tsx:79 | storing a stored fragment again changes nothing |
| UrlFragment.EncodeSpace | src/components/Router.tsx:79 | a space is stored as `%20` |
| UrlFragment.EncodeAccent | src/components/Router.tsx:79 | `é` is stored as the percent-encoding `%C3%A9` of its UTF-8 bytes |
| UrlFragment.TrimEnd | src/components/Router.tsx:60 | the trimmed text is a prefix whose removed tail is all C0 controls and spaces, and it does not end in one |
| UrlFragment.TrimEndAfter | src/components/Router.tsx:60 | trimming never reaches back past a character it keeps |
| Router.CurrentPath | src/components/Router.tsx:14-18 | the current path is never empty: it is the fragment without `#`, or `/` when that is empty |
| Router.AssignHash | src/components/Router.tsx:56-79 | `location.hash = p` drops one leading `#` and stores the rest percent-encoded as the fragment; the hash reads back empty or starting with `#` |
| Router.FollowHref | src/components/Router.tsx:60 | following the `href` `#${to}` trims trailing C0 controls and spaces from `to` and stores the rest percent-encoded as the fragment |
| Router.NavigateSetsCurrentPath | src/components/Router.tsx:53-80 | after `navigate(p)` or a `Link` to `p`, the current path holds only characters stored verbatim; it is `p` when every character of `p` is stored verbatim (and, for `navigate`, `p` does not start with `#`); an empty target lands on `/` |
| Router.NavigateEncodesSpace | src/components/Router.tsx:78-80 | `navigate("/projects/a b")` makes the current path `/projects/a%20b` |
| Router.FollowHrefTrimsEnd | src/components/Router.tsx:60 | following the `href` of a `Link` to `/projects/a ` lands on `/projects/a` |
| Router.Matches | src/components/Router.tsx:27-42 | a route accepts its own path; a route without `:` accepts only its own path; a `:` route accepts another path only when both split into equally many `/` segments (ParametricMatchIsInstance gives the exact set of paths) |
| Router.Resolve | src/components/Router.tsx:25-48 | resolution returns the component of the first route in table order that matches, and the default when none matches |
| Router.ResolveFallsBack | src/components/Router.tsx:47 | a path no route matches resolves to the default route |
| Router.ParametricMatchIsInstance | src/components/Router.tsx:31-42 | a route with `:` matches a path iff the path is the pattern with every `:` segment replaced by some slash-free value (possibly empty) |
| Router.LiteralRouteMatchesOnlyItself | src/components/Router.tsx:27-31 | a route without `:` matches exactly its own path |
| Router.GetParam | src/components/Router.tsx:82-91 | `getParam` answers iff the name is `id` and the fragment contains `/projects/`; the answer is slash-free and is the last segment of the current path |
| Router.GetParamAfterProjectLink | src/components/Router.tsx:78-91 | after navigating to `/projects/<id>` (slash-free id), `getParam("id")` is the id as the browser stores it, the id itself when every character is stored verbatim, and every other name gives null |
| Router.GetParamOnProjectPath | src/components/Router.tsx:82-91 | on a fragment `/projects/<e>` with slash-free `e`, `getParam("id")` is `e` and every other name gives null |
| Router.GetParamIgnoresRoutes | src/components/Router.tsx:86-87 | the extractor looks only at the text: on `/projects/42/extra` it answers `extra` |
| Router.ProjectLinkResolvesToDetail | src/components/Router.tsx:31-42 | with the site's table every `/projects/<id>` with a slash-free id (even empty) resolves to the detail page |
| Router.ProjectLinkOpensDetail | src/components/Router.tsx:25-60 | a click on a project link or following its `href` resolves to the detail route for every slash-free id, whatever the browser encodes |
| Router.SiteTableExamples | src/components/Router.tsx:27-42 | `/projects` resolves to the list by exact match; `/projects/42` and `/projects/` resolve to the detail page |
| Router.DetailPatternRejectsThreeSegments | src/components/Router.tsx:35 | the detail pattern never matches a path with a different segment count |
| Router.UnknownPathFallsBack | src/components/Router.tsx:25-47 | `/unknown` matches no route and resolves to the default |
| Router.ExtraSegmentFallsBack | src/components/Router.tsx:35-47 | `/projects/42/extra` fails the detail pattern on segment count and resolves to the default |
| Translation.ParseLocale | src/contexts/TranslationContext.tsx:24-28 | the initial locale is the stored value when it is exactly one of the three tags, English otherwise |
| Translation.SetLocale | src/contexts/TranslationContext.tsx:30-33 | `setLocale(l)` makes `l` active, stores its tag under `locale` and leaves every other stored key unchanged |
| Translation.SetLocaleSurvivesReload | src/contexts/TranslationContext.tsx:24-33 | re-initialising after `setLocale(l)` restores `l` |
| Translation.Walk | src/contexts/TranslationContext.tsx:40-47 | no segments leave the dictionary where it is; a string met before the segments run out, or a segment missing from the current object, ends the walk with nothing (WalkAppend composes walks) |
| Translation.Translate | src/contexts/TranslationContext.tsx:36-50 | `t` is total: the answer is the key itself or a string stored somewhere in the active locale's dictionary |
| Translation.WalkAppend | src/contexts/TranslationContext.tsx:40-47 | walking a concatenation of segments is walking the first part and then the second from where it ended |
| Translation.TranslateMissReturnsKey | src/contexts/TranslationContext.tsx:41-45 | when the walk meets a string with segments left over, or an object lacking the next segment, `t` returns the key |
| Translation.LeafFoundByDottedKey | src/contexts/TranslationContext.tsx:36-49 | every string of a dictionary is found again by the dotted key of its path |
| Translation.ObjectKeyReturnsKey | src/contexts/TranslationContext.tsx:49 | a key that leads to an object returns the key |
| Translation.SampleLookups | src/contexts/TranslationContext.tsx:41-49 | `contact.customizationTitle` gives the key under English and the French text under French; `nav.home.x` and `nav` give the key |
| ProjectDetail.NextImage | src/pages/ProjectDetail.tsx:55-59 | next moves one step forward within range, wraps from the last image to 0, and does nothing without images |
| ProjectDetail.PrevImage | src/pages/ProjectDetail.tsx:61-65 | previous moves one step back within range, wraps from 0 to the last image, and does nothing without images |
| ProjectDetail.NextPrevInverse | src/pages/ProjectDetail.tsx:55-65 | next then previous, and previous then next, give back any in-range index |
| ProjectDetail.NextTimesAdvances | src/pages/ProjectDetail.tsx:57 | up to n presses of next advance the index by the number of presses, wrapping at most once |
| ProjectDetail.NextCycleReturns | src/pages/ProjectDetail.tsx:57 | n presses of next return to the start, so the index is periodic in the number of presses |
| ProjectDetail.Step | src/pages/ProjectDetail.tsx:131-168 | a dot or thumbnail click selects exactly its own position |
| ProjectDetail.Render | src/pages/ProjectDetail.tsx:104-151 | with no images the placeholder shows; an image shows iff the index is in range; the controls show iff there is more than one image |
| ProjectDetail.RunStaysInRange | src/pages/ProjectDetail.tsx:14-168 | from an in-range index, any sequence of offered actions keeps the index in range, so the image area never reads past the end |
| ProjectDetail.StaleIndexReadsPastEnd | src/pages/ProjectDetail.tsx:14-20 | the index is not reset when the project changes: index 4 reached on a five-image project reads past the end of a two-image one |
| ProjectDetail.Trim | src/pages/ProjectDetail.tsx:91 | `trim` gives a piece of the text with the same non-space content that neither starts nor ends with white space |
| ProjectDetail.TrimIdempotent | src/pages/ProjectDetail.tsx:91 | trimming twice is trimming once |
| ProjectDetail.Collapse | src/pages/ProjectDetail.tsx:90 | collapsing keeps the content, leaves no two white-space characters in a row and only plain spaces, is empty iff the input is, and starts with white space iff the input does |
| ProjectDetail.CollapseSpaceRun | src/pages/ProjectDetail.tsx:90 | a non-empty run of white space becomes one space |
| ProjectDetail.CollapseNoSpace | src/pages/ProjectDetail.tsx:90 | text without white space is unchanged |
| ProjectDetail.CollapseAppend | src/pages/ProjectDetail.tsx:90 | collapsing goes piece by piece across a non-space character; with the two rows above this determines the result |
| ProjectDetail.CollapseGap | src/pages/ProjectDetail.tsx:90 | a white-space run between two non-space characters becomes exactly one space |
| ProjectDetail.CollapseKeepsWordsApart | src/pages/ProjectDetail.tsx:90 | `a   b` becomes `a b` |
| ProjectDetail.NormalisedWellFormed | src/pages/ProjectDetail.tsx:89-91 | collapsed then trimmed text keeps the content, starts with a non-space and has no double white space |
| ProjectDetail.FallbackWellFormed | src/pages/ProjectDetail.tsx:92 | the fallback text is itself a valid description |
| ProjectDetail.MetaDescription | src/pages/ProjectDetail.tsx:88-92 | the description is non-empty, at most 160 characters, starts with a non-space and has no double white space; it is the fallback iff the input has no content, otherwise a prefix of the normalised text: all of it, with all content kept, when that fits, and exactly 160 characters of it when it does not |
| Admin.InitSlots | src/pages/Admin.tsx:201-205 | the form opens with one slot per existing image, carrying its URL in order, or with one empty slot; never with none |
| Admin.AddSlot | src/pages/Admin.tsx:244-246 | adding appends exactly one empty slot and keeps the others |
| Admin.Without | src/pages/Admin.tsx:249 | the index filter drops exactly the slot at the index and keeps the rest in order |
| Admin.RemoveSlot | src/pages/Admin.tsx:248-256 | removing deletes exactly slot i in order, or leaves one empty slot when none would remain; the list never empties |
| Admin.RemoveUndoesAdd | src/pages/Admin.tsx:244-256 | removing the slot just added gives back the list |
| Admin.FileSelect | src/pages/Admin.tsx:222-242 | no file changes nothing; a non-image or a file over 10 MiB sets its error and keeps the slots; otherwise only the chosen slot changes, keeps its stored URL, and the error clears |
| Admin.FileSelectOutcome | src/pages/Admin.tsx:222-242 | a file is accepted iff the error is cleared, an accepted file's slot will be saved, and a rejected file leaves the slots unchanged |
| Admin.KeptSlots | src/pages/Admin.tsx:286 | the saved slots are exactly the slots with a file or a stored URL |
| Admin.KeptAppend | src/pages/Admin.tsx:286 | the filter distributes over concatenation, so the saved slots keep their order |
| Admin.EmptyAddedSlotNotSaved | src/pages/Admin.tsx:244-286 | an added slot left empty changes nothing that is saved |
| Admin.AllContentAllKept | src/pages/Admin.tsx:286 | slots that all have content are all saved |
| Admin.Decimal | src/pages/Admin.tsx:260 | a number is spelled with decimal digits: one digit below ten, and never a leading zero in a longer spelling (DecimalRoundTrip gives the value back) |
| Admin.DecimalRoundTrip | src/pages/Admin.tsx:260 | reading the decimal spelling gives back the number |
| Admin.Extension | src/pages/Admin.tsx:259 | the extension has no dot; it is the whole name without a dot, and the text after the last dot otherwise |
| Admin.ObjectName | src/pages/Admin.tsx:260 | the object name starts with the project id and a slash |
| Admin.ObjectNameKeepsExtension | src/pages/Admin.tsx:259-260 | the object name carries the file's own extension |
| Admin.ObjectNameDetermines | src/pages/Admin.tsx:260 | within one project the object name gives back the upload position, the timestamp and the extension |
| Admin.SaveUploadNamesDistinct | src/pages/Admin.tsx:258-266 | two uploads of one save at different positions get different object names, so the no-overwrite upload does not collide with itself |
| Admin.FailureText | src/pages/Admin.tsx:368 | the message shown is the failure's own when it is non-empty, and the generic text when it is empty |
| Admin.UrlOf | src/pages/Admin.tsx:332-342 | a kept slot with a new file is uploaded under its object name for its position among the kept slots; a slot without one reuses its stored URL |
| Admin.SaveImages | src/pages/Admin.tsx:332-356 | the first slot whose upload fails ends the save with its message; otherwise one row per saved slot, in order, numbered from 0, with the same project id, carrying the uploaded URL for a file and the stored URL otherwise |
| Admin.Submit | src/pages/Admin.tsx:278-372 | with nothing to save the form refuses before any backend call; a failed project write ends with its message; otherwise the first failing upload ends with its message, then a failed insert with its message; the result is saved exactly when none of these fails, with one row per kept slot and display order 0..k-1 |
| Admin.UntouchedEditKeepsImages | src/pages/Admin.tsx:333-343 | saving an edited project without touching its slots writes its image URLs back in the same order |
| Projects.ImagesOf | src/pages/Projects.tsx:33 | a project's images are exactly the rows with its id |
| Projects.Group | src/pages/Projects.tsx:31-34 | one entry per project in fetched order, each with that project's image rows |
| Projects.GroupProjects | src/pages/Projects.tsx:31-34 | entry k is fetched project k with exactly its own image rows; a null project result gives an empty list; a null image result gives projects without images |
| Projects.LoadProjects | src/pages/Projects.tsx:14-42 | a failed project or image query leaves the shown list at its initial `[]`; when both succeed, entry k is fetched project k with its own image rows |
| Projects.ImageFailureHidesProjects | src/pages/Projects.tsx:28-38 | a failed image query hides every project, while a null image result still shows them all |
| Projects.ImagesOfAppend | src/pages/Projects.tsx:33 | the filter distributes over concatenation, so fetched order is preserved |
| Projects.ImagesOfAllMatch | src/pages/Projects.tsx:33 | rows that all belong to the project are all kept |
| Projects.ImagesOfSorted | src/pages/Projects.tsx:24-34 | rows fetched in display order stay in display order within each project |
| Projects.GroupedCountIsReferenced | src/pages/Projects.tsx:31-34 | with distinct project ids, the grouped image count is the number of rows that reference a fetched project |
| Projects.GroupedCountBound | src/pages/Projects.tsx:31-34 | the grouped image count is at most the row count, and equal when every row references a fetched project |
| Projects.CardCover | src/pages/Projects.tsx:75-85 | the cover is the first image when there is one, else the placeholder |
| Projects.View | src/pages/Projects.tsx:62-97 | an empty list shows the empty state; otherwise one card per project, linking to `/projects/<id>` |
| Projects.CoverIsFirstSlide | src/pages/Projects.tsx:75-77 | a card's cover is the image the detail page opens on |
| Projects.CardLinkOpensDetail | src/pages/Projects.tsx:71 | a click on a card's link, or following its `href`, makes the hash router resolve the detail route |
| Seo.WithoutTrailingSlash | src/components/Seo.tsx:16-18 | exactly one trailing slash is removed if present; otherwise the URL is unchanged |
| Seo.WithoutTrailingSlashUndoesSlash | src/components/Seo.tsx:16-18 | appending a slash and removing it gives back the URL |
| Seo.WithoutTrailingSlashNotIdempotent | src/components/Seo.tsx:16-18 | `//` becomes `/`, which becomes the empty string |
| Seo.IsAbsolute | src/components/Seo.tsx:21 | the text counts as absolute exactly when its ASCII-lower-cased form starts with `http://` or `https://` |
| Seo.ToAbsoluteUrl | src/components/Seo.tsx:20-24 | an `http://` or `https://` URL (any case) is kept; otherwise the result starts with the site URL and one slash, ends with the input, and adds nothing else |
| Seo.ToAbsoluteUrlIdempotent | src/components/Seo.tsx:20-24 | with an absolute site URL, the result is absolute and converting it again changes nothing |
| Seo.ToAbsoluteUrlExamples | src/components/Seo.tsx:21-23 | the scheme test ignores case; `/image.png` and `image.png` both become `<site>/image.png` |
| Seo.JoinedUrlAbsolute | src/components/Seo.tsx:44-47 | removing the site URL's trailing slash never makes the joined URL relative |
| Seo.SiteUrlRaw | src/components/Seo.tsx:41-43 | the configured site URL when it is non-empty, otherwise the window's origin, otherwise the empty string |
| Seo.SiteUrl | src/components/Seo.tsx:44 | the site URL is empty iff the raw one is empty or a lone slash; it is the raw URL without its one trailing slash, or the raw URL when there is none |
| Seo.SeoTags | src/components/Seo.tsx:37-71 | the title, description, canonical, image and robots fallbacks: the canonical exists iff there is a site URL; robots forbid indexing iff asked |
| Seo.LoneSlashSiteUrl | src/components/Seo.tsx:44-47 | a configured site URL of `/` yields no canonical and the image path as given |
| Seo.TitleNamesSite | src/components/Seo.tsx:37-50 | every title names the site and every description is non-empty |
| Seo.AbsoluteSiteGivesAbsoluteImage | src/components/Seo.tsx:41-47 | with an absolute configured site URL the social image URL is absolute |

## Left out

- Backend calls are not modelled. The project and image queries, the
  inserts, updates and deletes, the storage upload and `getPublicUrl` are
  calls to a hosted service. Their results are inputs:
  - the outcome of each query on the projects page: a failure, or the
    fetched rows (possibly null);
  - the outcome of the project write (`prepared`);
  - an upload function from object name and file to URL or message;
  - the outcome of the image row insert.
- Admin.Submit: the project write is one input. The update followed by the
  deletion of the old image rows, or the insert of a new row, are not told
  apart. Only the message of whichever step failed first is kept.
- Admin.FileSelect: requires the slot index to be in range. The form only
  passes indices of existing slots. JavaScript would grow the array for
  any other index.
- Admin.Slot: an absent `existingUrl` and an empty one are one value. The
  form only ever tests the URL for truthiness or copies it.
- The clock is an input. `Date.now()` is a function from the upload's
  position to a time, and `new Date()` is not modelled.
- Object URLs are opaque strings. `createObjectURL` and `revokeObjectURL`
  manage browser resources.
- The file size shown in megabytes (`toFixed(2)`) is floating-point display
  formatting and is not modelled.
- React, Helmet, logging and browser glue are not modelled. This covers
  hooks, effects, rendering, loading flags, the `console.warn` on a missed
  translation key and the `console.error` calls on failures, the `hashchange` listener
  registration, `window` and the JSON-LD script. The hash is an explicit
  string, and storage is a map.
- Router.GetParam: takes the hook's `currentPath` state to be in step with
  `location.hash`, as it is after every change notification. Between a hash
  write and its notification the two can differ.
- Translation.Translate: the three dictionaries are only sampled: a few
  entries of `src/locale/*.ts`, not the full files. Keys inherited through
  the prototype chain are ignored, since they also end in returning the key.
- ProjectDetail.RunStaysInRange: the in-range invariant holds within one
  project. The page does not reset the index when the route's project id
  changes, and StaleIndexReadsPastEnd shows what a stale index does. This
  is not listed as a defect because the site's own links never go directly
  from one detail page to another.
- The image lightbox, keyboard and swipe handling are not part of the
  modelled files.
- The static pages (`Home`, `Contact`, `Layout`, `Login`), authentication,
  project deletion and the library router of `src/App.tsx` are outside the
  modelled logic.
- Characters are Unicode scalar values, not UTF-16 code units. A character
  outside the Basic Multilingual Plane, such as an emoji, is one `char` here
  and two code units in JavaScript, and a lone surrogate cannot be written
  at all. Nothing is normalised or case-folded beyond the ASCII letters of
  the URL scheme test.
- ProjectDetail.MetaDescription: keeps the first 160 characters, where
  JavaScript's `slice(0, 160)` keeps 160 UTF-16 code units. The two differ
  only for text outside the Basic Multilingual Plane, which `slice` can
  also cut in half.
- Router.NavigateSetsCurrentPath: the history entry, scrolling and the
  ordering of `hashchange` events are not modelled. The stored fragment is
  modelled by `UrlFragment.Encode`, and the path equals the target exactly
  when every character of the target is stored verbatim.

=== FILE: admin.dfy ===
/** The project form of the administration page (src/pages/Admin.tsx,
    `ProjectForm`): the list of image slots the form edits, the checks a
    chosen file must pass, the storage name an upload is given, and the
    save sequence that turns the slots into image rows. The backend (the
    project row write, the storage upload, the image row insert) and the
    clock are parameters; object URLs for previews are opaque strings. */
module Admin {
  import opened Wrappers
  import opened Strings
  import opened Records

  /** A file picked in the browser: its name, its MIME type and its size in
      bytes. */
  datatype File = File(name: string, mimeType: string, size: nat)

  /** One image slot of the form. `existingUrl` is the stored URL of an image
      the project already had, or "" for none (an absent and an empty URL
      behave alike: both are falsy wherever the form tests them). */
  datatype Slot = Slot(file: Option<File>, preview: string, existingUrl: string)

  /** A slot with nothing in it. */
  const EmptySlot: Slot := Slot(None, "", "")

  /** A slot holds an image to save: a newly chosen file, or the URL of an
      image the project already has. */
  predicate HasContent(s: Slot) {
    s.file.Some? || s.existingUrl != ""
  }

  // ---------------------------------------------------------------------
  // The slot list.

  /** The slots the form opens with: one per image of the edited project,
      showing and remembering its stored URL, in the project's image order;
      a single empty slot for a new project or one without images. */
  function InitSlots(p: Option<ProjectWithImages>): (slots: seq<Slot>)
    ensures |slots| >= 1
    ensures p.Some? && |p.value.images| > 0 ==>
              |slots| == |p.value.images| &&
              forall k :: 0 <= k < |slots| ==>
                slots[k] == Slot(None, p.value.images[k].imageUrl, p.value.images[k].imageUrl)
    ensures (p.None? || |p.value.images| == 0) ==> slots == [EmptySlot]
  {
    if p.Some? && |p.value.images| > 0 then
      seq(|p.value.images|, k requires 0 <= k < |p.value.images| =>
        Slot(None, p.value.images[k].imageUrl, p.value.images[k].imageUrl))
    else
      [EmptySlot]
  }

  /** "Add another image": one more empty slot at the end. */
  function AddSlot(slots: seq<Slot>): (r: seq<Slot>)
    ensures |r| == |slots| + 1 && r[..|slots|] == slots && r[|slots|] == EmptySlot
  {
    slots + [EmptySlot]
  }

  /** `slots.filter((_, i) => i !== index)`, written index by index: the
      slots from position `from` on whose position is not `index`. */
  function Without(slots: seq<Slot>, index: int, from: nat): (r: seq<Slot>)
    requires from <= |slots|
    ensures from <= index < |slots| ==> r == slots[from..index] + slots[index + 1..]
    ensures !(from <= index < |slots|) ==> r == slots[from..]
    decreases |slots| - from
  {
    if from == |slots| then []
    else if from == index then Without(slots, index, from + 1)
    else [slots[from]] + Without(slots, index, from + 1)
  }

  /** Removing slot `index`: the other slots in order, and a fresh empty
      slot when none would be left, so the form always shows at least one.
      An index outside the list removes nothing. */
  function RemoveSlot(slots: seq<Slot>, index: int): (r: seq<Slot>)
    ensures |r| >= 1
    ensures 0 <= index < |slots| && |slots| > 1 ==> r == slots[..index] + slots[index + 1..]
    ensures 0 <= index < |slots| && |slots| == 1 ==> r == [EmptySlot]
    ensures !(0 <= index < |slots|) && |slots| >= 1 ==> r == slots
    ensures |slots| == 0 ==> r == [EmptySlot]
  {
    var kept := Without(slots, index, 0);
    assert slots[0..] == slots;
    if |kept| == 0 then [EmptySlot] else kept
  }

  /** Removing the slot just added gives back the list as it was. */
  lemma RemoveUndoesAdd(slots: seq<Slot>)
    requires |slots| >= 1
    ensures RemoveSlot(AddSlot(slots), |slots|) == slots
  {
    var a := AddSlot(slots);
    assert a[..|slots|] == slots;
    assert a[|slots| + 1..] == [];
  }

  // ---------------------------------------------------------------------
  // Choosing a file.

  /** The largest accepted file: 10 MiB. */
  const MaxImageBytes: nat := 10 * 1024 * 1024

  const NotAnImage: string := "Please select an image file"
  const TooLarge: string := "Image size must be less than 10MB"

  /** The form's slots and the error message it shows ("" for none). */
  datatype FormState = FormState(slots: seq<Slot>, error: string)

  /** A file is accepted when its type starts with `image/` and it is at
      most 10 MiB. */
  predicate Acceptable(f: File) {
    IsPrefix("image/", f.mimeType) && f.size <= MaxImageBytes
  }

  /** `handleFileSelect(index, file)`: no file changes nothing; a file that
      is not an image, or larger than 10 MiB, only sets the matching error;
      an accepted file goes into slot `index` with its preview, the slot
      keeps its stored URL, no other slot changes and the error is cleared. */
  function FileSelect(st: FormState, index: nat, file: Option<File>, preview: string): (r: FormState)
    requires index < |st.slots|
    ensures |r.slots| == |st.slots|
    ensures file.None? ==> r == st
    ensures file.Some? && !IsPrefix("image/", file.value.mimeType) ==>
              r == FormState(st.slots, NotAnImage)
    ensures file.Some? && IsPrefix("image/", file.value.mimeType) && file.value.size > MaxImageBytes ==>
              r == FormState(st.slots, TooLarge)
    ensures file.Some? && Acceptable(file.value) ==>
              && r.error == ""
              && r.slots[index].file == file
              && r.slots[index].preview == preview
              && r.slots[index].existingUrl == st.slots[index].existingUrl
              && (forall j :: 0 <= j < |st.slots| && j != index ==> r.slots[j] == st.slots[j])
  {
    if file.None? then st
    else if !IsPrefix("image/", file.value.mimeType) then FormState(st.slots, NotAnImage)
    else if file.value.size > MaxImageBytes then FormState(st.slots, TooLarge)
    else
      var current := st.slots[index];
      FormState(st.slots[index := Slot(file, preview, current.existingUrl)], "")
  }

  /** A slot that received an accepted file is saved; a rejected file leaves
      the slot list exactly as it was. */
  lemma FileSelectOutcome(st: FormState, index: nat, f: File, preview: string)
    requires index < |st.slots|
    ensures Acceptable(f) ==> HasContent(FileSelect(st, index, Some(f), preview).slots[index])
    ensures Acceptable(f) <==> FileSelect(st, index, Some(f), preview).error == ""
    ensures !Acceptable(f) ==> FileSelect(st, index, Some(f), preview).slots == st.slots
  {
  }

  // ---------------------------------------------------------------------
  // The slots that are saved.

  /** `images.filter(img => img.file || img.existingUrl)`: the slots with
      content, in order. */
  function KeptSlots(slots: seq<Slot>): (r: seq<Slot>)
    ensures |r| <= |slots|
    ensures forall k :: 0 <= k < |r| ==> HasContent(r[k])
    ensures forall x :: x in r <==> x in slots && HasContent(x)
    decreases |slots|
  {
    if |slots| == 0 then []
    else
      var rest := KeptSlots(slots[1..]);
      assert forall x :: x in slots <==> x == slots[0] || x in slots[1..];
      if HasContent(slots[0]) then [slots[0]] + rest else rest
  }

  /** Filtering distributes over concatenation. */
  lemma {:induction false} KeptAppend(a: seq<Slot>, b: seq<Slot>)
    ensures KeptSlots(a + b) == KeptSlots(a) + KeptSlots(b)
    decreases |a|
  {
    if |a| == 0 {
      assert a + b == b;
    } else {
      assert (a + b)[0] == a[0];
      assert (a + b)[1..] == a[1..] + b;
      KeptAppend(a[1..], b);
    }
  }

  /** An added slot that stays empty is not saved. */
  lemma EmptyAddedSlotNotSaved(slots: seq<Slot>)
    ensures KeptSlots(AddSlot(slots)) == KeptSlots(slots)
  {
    KeptAppend(slots, [EmptySlot]);
  }

  /** Slots all of which have content are all saved. */
  lemma {:induction false} AllContentAllKept(slots: seq<Slot>)
    requires forall k :: 0 <= k < |slots| ==> HasContent(slots[k])
    ensures KeptSlots(slots) == slots
    decreases |slots|
  {
    if |slots| > 0 {
      AllContentAllKept(slots[1..]);
    }
  }

  // ---------------------------------------------------------------------
  // Storage names.

  /** The decimal spelling of a natural number (`${n}`). */
  function Decimal(n: nat): (s: string)
    ensures |s| >= 1
    ensures forall k :: 0 <= k < |s| ==> '0' <= s[k] <= '9'
    ensures n < 10 ==> |s| == 1
    ensures |s| > 1 ==> s[0] != '0'
    decreases n
  {
    if n < 10 then [('0' as int + n) as char]
    else Decimal(n / 10) + [('0' as int + n % 10) as char]
  }

  /** The value of a string of decimal digits. */
  function DecimalValue(s: string): nat
    requires forall k :: 0 <= k < |s| ==> '0' <= s[k] <= '9'
    decreases |s|
  {
    if |s| == 0 then 0
    else 10 * DecimalValue(s[..|s| - 1]) + (s[|s| - 1] as int - '0' as int)
  }

  /** Reading the decimal spelling gives back the number. */
  lemma {:induction false} DecimalRoundTrip(n: nat)
    ensures DecimalValue(Decimal(n)) == n
    decreases n
  {
    if n >= 10 {
      var s := Decimal(n);
      assert s[..|s| - 1] == Decimal(n / 10);
      DecimalRoundTrip(n / 10);
    }
  }

  /** `file.name.split('.').pop()`: the text after the last dot, or the
      whole name when it has none. */
  function Extension(name: string): (ext: string)
    ensures '.' !in ext
    ensures '.' !in name ==> ext == name
    ensures '.' in name ==> IsSuffix("." + ext, name)
  {
    LastPartFacts(name);
    Last(Split(name, '.'))
  }

  /** The last dot-separated part of a name is the name itself when it has
      no dot, and follows its last dot otherwise. */
  lemma LastPartFacts(name: string)
    ensures '.' !in name ==> Last(Split(name, '.')) == name
    ensures '.' in name ==> IsSuffix("." + Last(Split(name, '.')), name)
  {
    if '.' in name {
      LastPartIsSuffix(name, '.');
    } else {
      SplitWithoutSep(name, '.');
    }
  }

  /** The storage object name of the `index`-th saved image:
      `<project id>/<index>-<timestamp>.<extension>`. */
  function ObjectName(projectId: string, index: nat, timestamp: nat, fileName: string): (r: string)
    ensures IsPrefix(projectId + "/", r)
  {
    projectId + "/" + Decimal(index) + "-" + Decimal(timestamp) + "." + Extension(fileName)
  }

  /** The object name ends in the file's own extension. */
  lemma ObjectNameKeepsExtension(projectId: string, index: nat, timestamp: nat, fileName: string)
    ensures Extension(ObjectName(projectId, index, timestamp, fileName)) == Extension(fileName)
  {
    var ext := Extension(fileName);
    var prefix := projectId + "/" + Decimal(index) + "-" + Decimal(timestamp);
    assert ObjectName(projectId, index, timestamp, fileName) == prefix + ['.'] + ext;
    SplitLastPart(prefix, '.', ext);
  }

  /** Within one project the object name gives back the upload's position,
      its timestamp and the file's extension. */
  lemma ObjectNameDetermines(projectId: string, index: nat, timestamp: nat, fileName: string,
                             index': nat, timestamp': nat, fileName': string)
    requires ObjectName(projectId, index, timestamp, fileName) == ObjectName(projectId, index', timestamp', fileName')
    ensures index == index' && timestamp == timestamp' && Extension(fileName) == Extension(fileName')
  {
    var d, e, x := Decimal(index), Decimal(timestamp), Extension(fileName);
    var d', e', x' := Decimal(index'), Decimal(timestamp'), Extension(fileName');
    DigitsOnly(d);
    DigitsOnly(d');
    DigitsOnly(e);
    DigitsOnly(e');
    NameTail(projectId, d, e, x);
    NameTail(projectId, d', e', x');
    FirstSeparatorUnique(d, e + "." + x, d', e' + "." + x', '-');
    FirstSeparatorUnique(e, x, e', x', '.');
    DecimalRoundTrip(index);
    DecimalRoundTrip(index');
    DecimalRoundTrip(timestamp);
    DecimalRoundTrip(timestamp');
  }

  /** What follows the project's `/` in an object name. */
  lemma NameTail(projectId: string, d: string, e: string, x: string)
    ensures (projectId + "/" + d + "-" + e + "." + x)[|projectId| + 1..] == d + "-" + (e + "." + x)
  {
  }

  /** A string of digits holds neither `-` nor `.`. */
  lemma DigitsOnly(s: string)
    requires forall k :: 0 <= k < |s| ==> '0' <= s[k] <= '9'
    ensures '-' !in s && '.' !in s
  {
  }

  /** Two uploads of one save, at different positions, get different object
      names, so the upload's refusal to overwrite an object never trips over
      the save's own files. */
  lemma SaveUploadNamesDistinct(projectId: string, clock: nat -> nat, j: nat, k: nat,
                                fileName: string, fileName': string)
    requires j != k
    ensures ObjectName(projectId, j, clock(j), fileName) != ObjectName(projectId, k, clock(k), fileName')
  {
    if ObjectName(projectId, j, clock(j), fileName) == ObjectName(projectId, k, clock(k), fileName') {
      ObjectNameDetermines(projectId, j, clock(j), fileName, k, clock(k), fileName');
    }
  }

  // ---------------------------------------------------------------------
  // Saving.

  const NoImages: string := "Please add at least one image"
  const SaveFailed: string := "Failed to save project. Please try again."

  /** The message shown for a failure: its own text, or the generic one when
      it has none (`err.message || ...`). */
  function FailureText(message: string): (t: string)
    ensures t != ""
    ensures message != "" ==> t == message
    ensures message == "" ==> t == SaveFailed
  {
    if message == "" then SaveFailed else message
  }

  /** An image row to insert: project, URL and position. */
  datatype ImageRow = ImageRow(projectId: string, imageUrl: string, displayOrder: nat)

  /** How a submission ends: refused before touching the backend, failed
      with a message, or saved with the image rows inserted. */
  datatype Outcome = Rejected(message: string) | Failed(message: string) | Saved(rows: seq<ImageRow>)

  /** The URL the `k`-th kept slot contributes: a new file is uploaded under
      its object name (the upload may fail with a message); otherwise the
      stored URL is reused. */
  function UrlOf(slot: Slot, projectId: string, k: nat, clock: nat -> nat,
                 upload: (string, File) -> Result<string, string>): (url: Result<string, string>)
    ensures slot.file.None? ==> url == Success(slot.existingUrl)
    ensures slot.file.Some? ==>
              url == upload(ObjectName(projectId, k, clock(k), slot.file.value.name), slot.file.value)
  {
    if slot.file.Some? then
      upload(ObjectName(projectId, k, clock(k), slot.file.value.name), slot.file.value)
    else
      Success(slot.existingUrl)
  }

  /** The first `n` kept slots all produced a URL. */
  predicate UploadedUpTo(kept: seq<Slot>, projectId: string, clock: nat -> nat,
                         upload: (string, File) -> Result<string, string>, n: nat)
    requires n <= |kept|
  {
    forall j :: 0 <= j < n ==> UrlOf(kept[j], projectId, j, clock, upload).Success?
  }

  /** The upload loop and the row insert of `handleSubmit`, for the kept
      slots of a project whose row was written under `projectId`: the first
      slot whose URL cannot be obtained ends the save with that failure's
      message; when every slot has a URL, the insert's failure ends it, and
      otherwise one row per kept slot is saved, in slot order, numbered from
      0, carrying the uploaded or stored URL. */
  method SaveImages(kept: seq<Slot>, projectId: string, clock: nat -> nat,
                    upload: (string, File) -> Result<string, string>, insertFailure: Option<string>)
    returns (outcome: Outcome)
    ensures outcome.Failed? || outcome.Saved?
    ensures forall k :: 0 <= k < |kept| && UploadedUpTo(kept, projectId, clock, upload, k) &&
                        UrlOf(kept[k], projectId, k, clock, upload).Failure? ==>
              outcome == Failed(FailureText(UrlOf(kept[k], projectId, k, clock, upload).error))
    ensures UploadedUpTo(kept, projectId, clock, upload, |kept|) && insertFailure.Some? ==>
              outcome == Failed(FailureText(insertFailure.value))
    ensures outcome.Saved? <==> UploadedUpTo(kept, projectId, clock, upload, |kept|) && insertFailure.None?
    ensures outcome.Saved? ==>
              |outcome.rows| == |kept| &&
              forall k :: 0 <= k < |kept| ==>
                outcome.rows[k] == ImageRow(projectId, UrlOf(kept[k], projectId, k, clock, upload).value, k)
  {
    var rows: seq<ImageRow> := [];
    var i := 0;
    while i < |kept|
      invariant 0 <= i <= |kept| && |rows| == i
      invariant UploadedUpTo(kept, projectId, clock, upload, i)
      invariant forall k :: 0 <= k < i ==>
                  rows[k] == ImageRow(projectId, UrlOf(kept[k], projectId, k, clock, upload).value, k)
    {
      var url := UrlOf(kept[i], projectId, i, clock, upload);
      if url.Failure? {
        return Failed(FailureText(url.error));
      }
      rows := rows + [ImageRow(projectId, url.value, i)];
      i := i + 1;
    }
    if insertFailure.Some? {
      return Failed(FailureText(insertFailure.value));
    }
    return Saved(rows);
  }

  /** `handleSubmit`. `prepared` is the outcome of writing the project row
      (the update and the removal of the old image rows when editing, the
      insert when creating): the project's id, or the failure's message.
      `upload` stores a file under an object name and gives its public URL;
      `clock(k)` is the time at the `k`-th upload; `insertFailure` is the
      outcome of inserting the image rows. With no slot to save the form
      refuses before touching the backend; a failed project write ends the
      submission with its message; otherwise the kept slots are saved as
      `SaveImages` states. */
  method Submit(slots: seq<Slot>, prepared: Result<string, string>, clock: nat -> nat,
                upload: (string, File) -> Result<string, string>, insertFailure: Option<string>)
    returns (outcome: Outcome)
    ensures KeptSlots(slots) == [] <==> outcome == Rejected(NoImages)
    ensures KeptSlots(slots) != [] && prepared.Failure? ==>
              outcome == Failed(FailureText(prepared.error))
    ensures KeptSlots(slots) != [] && prepared.Success? ==>
              forall k :: 0 <= k < |KeptSlots(slots)| &&
                          UploadedUpTo(KeptSlots(slots), prepared.value, clock, upload, k) &&
                          UrlOf(KeptSlots(slots)[k], prepared.value, k, clock, upload).Failure? ==>
                outcome == Failed(FailureText(UrlOf(KeptSlots(slots)[k], prepared.value, k, clock, upload).error))
    ensures KeptSlots(slots) != [] && prepared.Success? &&
            UploadedUpTo(KeptSlots(slots), prepared.value, clock, upload, |KeptSlots(slots)|) &&
            insertFailure.Some? ==>
              outcome == Failed(FailureText(insertFailure.value))
    ensures outcome.Saved? <==>
              && KeptSlots(slots) != [] && prepared.Success? && insertFailure.None?
              && UploadedUpTo(KeptSlots(slots), prepared.value, clock, upload, |KeptSlots(slots)|)
    ensures outcome.Saved? ==>
              prepared.Success? && insertFailure.None? &&
              UploadedUpTo(KeptSlots(slots), prepared.value, clock, upload, |KeptSlots(slots)|) &&
              |outcome.rows| == |KeptSlots(slots)| &&
              forall k :: 0 <= k < |outcome.rows| ==>
                outcome.rows[k] == ImageRow(prepared.value,
                  UrlOf(KeptSlots(slots)[k], prepared.value, k, clock, upload).value, k)
  {
    var kept := KeptSlots(slots);
    if |kept| == 0 {
      return Rejected(NoImages);
    }
    if prepared.Failure? {
      return Failed(FailureText(prepared.error));
    }
    outcome := SaveImages(kept, prepared.value, clock, upload, insertFailure);
  }

  /** Editing a project whose images all have URLs and saving without
      touching the slots writes the same URLs back, in the same order,
      numbered from 0. */
  lemma UntouchedEditKeepsImages(p: ProjectWithImages, clock: nat -> nat,
                                 upload: (string, File) -> Result<string, string>)
    requires |p.images| > 0
    requires forall k :: 0 <= k < |p.images| ==> p.images[k].imageUrl != ""
    ensures var kept := KeptSlots(InitSlots(Some(p)));
            |kept| == |p.images| &&
            forall k :: 0 <= k < |kept| ==>
              UrlOf(kept[k], p.project.id, k, clock, upload) == Success(p.images[k].imageUrl)
  {
    AllContentAllKept(InitSlots(Some(p)));
  }
}

=== FILE: project_detail.dfy ===
/** The project detail page (src/pages/ProjectDetail.tsx): the carousel's
    image index with next, previous and direct selection, what the image
    area shows for an index, and the normalised meta description. The
    loaded project is an input (the fetch is a backend call). */
module ProjectDetail {
  import opened Wrappers
  import opened Records
  import opened Strings

  // ---------------------------------------------------------------------
  // Carousel index.

  /** The number of images of the loaded project; 0 when none is loaded. */
  function ImageCount(p: Option<ProjectWithImages>): nat {
    if p.Some? then |p.value.images| else 0
  }

  /** `nextImage`: one step forward, wrapping from the last image to the
      first; nothing happens without a loaded project that has images. */
  function NextImage(p: Option<ProjectWithImages>, i: nat): (j: nat)
    ensures ImageCount(p) == 0 ==> j == i
    ensures ImageCount(p) > 0 ==> j < ImageCount(p)
    ensures ImageCount(p) > 0 && i + 1 < ImageCount(p) ==> j == i + 1
    ensures ImageCount(p) > 0 && i + 1 == ImageCount(p) ==> j == 0
  {
    if p.Some? && |p.value.images| > 0 then (i + 1) % |p.value.images| else i
  }

  /** `prevImage`: one step back, wrapping from the first image to the last;
      nothing happens without a loaded project that has images. */
  function PrevImage(p: Option<ProjectWithImages>, i: nat): (j: nat)
    ensures ImageCount(p) == 0 ==> j == i
    ensures ImageCount(p) > 0 ==> j < ImageCount(p)
    ensures ImageCount(p) > 0 && 0 < i <= ImageCount(p) ==> j == i - 1
    ensures ImageCount(p) > 0 && i == 0 ==> j == ImageCount(p) - 1
  {
    if p.Some? && |p.value.images| > 0 then
      var n := |p.value.images|;
      WrapOnce(i - 1 + n, n);
      (i - 1 + n) % n
    else i
  }

  /** The remainder of a value below twice the divisor. */
  lemma WrapOnce(a: int, n: int)
    requires n > 0
    ensures 0 <= a < n ==> a % n == a
    ensures n <= a < 2 * n ==> a % n == a - n
  {
  }

  /** Next and previous undo each other on every in-range index. */
  lemma NextPrevInverse(p: Option<ProjectWithImages>, i: nat)
    requires i < ImageCount(p)
    ensures PrevImage(p, NextImage(p, i)) == i
    ensures NextImage(p, PrevImage(p, i)) == i
  {
  }

  /** `k` presses of the next button. */
  function NextTimes(p: Option<ProjectWithImages>, i: nat, k: nat): nat
    decreases k
  {
    if k == 0 then i else NextImage(p, NextTimes(p, i, k - 1))
  }

  /** Up to one full round of presses of next from an in-range index
      advances it by `k`, wrapping past the last image at most once. */
  lemma {:induction false} NextTimesAdvances(p: Option<ProjectWithImages>, i: nat, k: nat)
    requires i < ImageCount(p) && k <= ImageCount(p)
    ensures NextTimes(p, i, k) == if i + k < ImageCount(p) then i + k else i + k - ImageCount(p)
    decreases k
  {
    if k > 0 {
      NextTimesAdvances(p, i, k - 1);
    }
  }

  /** Pressing next `a` times and then `b` times is pressing it `a + b`
      times. */
  lemma {:induction false} NextTimesCompose(p: Option<ProjectWithImages>, i: nat, a: nat, b: nat)
    ensures NextTimes(p, i, a + b) == NextTimes(p, NextTimes(p, i, a), b)
    decreases b
  {
    if b > 0 {
      NextTimesCompose(p, i, a, b - 1);
    }
  }

  /** As many presses of next as there are images come back to the start,
      so the index after `k` presses depends on `k` only modulo the count. */
  lemma NextCycleReturns(p: Option<ProjectWithImages>, i: nat, k: nat)
    requires i < ImageCount(p)
    ensures NextTimes(p, i, ImageCount(p)) == i
    ensures NextTimes(p, i, ImageCount(p) + k) == NextTimes(p, i, k)
  {
    NextTimesAdvances(p, i, ImageCount(p));
    NextTimesCompose(p, i, ImageCount(p), k);
  }

  /** The user actions on the carousel. */
  datatype GalleryEvent = NextClick | PrevClick | DotClick(dot: nat) | ThumbnailClick(thumb: nat)

  /** The page renders the buttons, dots and thumbnails only for a project
      with more than one image, and one dot and one thumbnail per image. */
  predicate Offered(p: Option<ProjectWithImages>, e: GalleryEvent) {
    && ImageCount(p) > 1
    && match e
       case NextClick => true
       case PrevClick => true
       case DotClick(k) => k < ImageCount(p)
       case ThumbnailClick(k) => k < ImageCount(p)
  }

  /** The index after one action: a dot or a thumbnail selects its own
      position. */
  function Step(p: Option<ProjectWithImages>, i: nat, e: GalleryEvent): (j: nat)
    ensures e.DotClick? ==> j == e.dot
    ensures e.ThumbnailClick? ==> j == e.thumb
  {
    match e
    case NextClick => NextImage(p, i)
    case PrevClick => PrevImage(p, i)
    case DotClick(k) => k
    case ThumbnailClick(k) => k
  }

  /** The index after a sequence of actions. */
  function Run(p: Option<ProjectWithImages>, i: nat, events: seq<GalleryEvent>): nat
    decreases |events|
  {
    if |events| == 0 then i else Run(p, Step(p, i, events[0]), events[1..])
  }

  /** What the image area shows. */
  datatype ImageArea =
    | NotFound                            // no project: the "not found" message
    | NoImages                            // the placeholder, no index is read
    | Slide(url: string, controls: bool)  // the image at the index; controls iff more than one image
    | ReadPastEnd                         // `images[index]` is undefined and reading its URL throws

  /** The image area for a loaded project and an index. */
  function Render(p: Option<ProjectWithImages>, i: nat): (a: ImageArea)
    ensures a == NotFound <==> p.None?
    ensures a == NoImages <==> p.Some? && ImageCount(p) == 0
    ensures a.Slide? <==> i < ImageCount(p)
    ensures a.Slide? ==> a.url == p.value.images[i].imageUrl && (a.controls <==> ImageCount(p) > 1)
  {
    if p.None? then NotFound
    else if |p.value.images| == 0 then NoImages
    else if i < |p.value.images| then Slide(p.value.images[i].imageUrl, |p.value.images| > 1)
    else ReadPastEnd
  }

  /** Within one project, starting from any in-range index (the page starts
      at 0) and using only the controls the page offers, the index stays in
      range, so the image area never reads past the end. */
  lemma {:induction false} RunStaysInRange(p: Option<ProjectWithImages>, i: nat, events: seq<GalleryEvent>)
    requires ImageCount(p) == 0 || i < ImageCount(p)
    requires forall k :: 0 <= k < |events| ==> Offered(p, events[k])
    ensures ImageCount(p) == 0 || Run(p, i, events) < ImageCount(p)
    ensures Render(p, Run(p, i, events)) != ReadPastEnd
    decreases |events|
  {
    if |events| > 0 {
      assert Offered(p, events[0]);
      RunStaysInRange(p, Step(p, i, events[0]), events[1..]);
    }
  }

  /** The index is not reset when the page switches to another project: an
      index reached on a five-image project is past the end of a two-image
      one. */
  lemma StaleIndexReadsPastEnd(big: ProjectWithImages, small: ProjectWithImages)
    requires |big.images| == 5 && |small.images| == 2
    ensures Run(Some(big), 0, [NextClick, NextClick, NextClick, NextClick]) == 4
    ensures Render(Some(small), 4) == ReadPastEnd
  {
    var p := Some(big);
    assert Run(p, 3, [NextClick]) == 4;
    assert [NextClick, NextClick, NextClick, NextClick][1..] == [NextClick, NextClick, NextClick];
    assert [NextClick, NextClick, NextClick][1..] == [NextClick, NextClick];
    assert [NextClick, NextClick][1..] == [NextClick];
  }

  // ---------------------------------------------------------------------
  // Meta description.

  /** The characters JavaScript's `\s` and `trim` treat as white space
      (ECMAScript WhiteSpace and LineTerminator). */
  predicate IsSpace(c: char) {
    || c == '\t' || c == '\n' || c == '\U{000B}' || c == '\U{000C}' || c == '\r'
    || c == ' ' || c == '\U{00A0}' || c == '\U{1680}'
    || ('\U{2000}' <= c <= '\U{200A}')
    || c == '\U{2028}' || c == '\U{2029}' || c == '\U{202F}' || c == '\U{205F}'
    || c == '\U{3000}' || c == '\U{FEFF}'
  }

  /** The non-white-space characters of `s`, in order: the text's content
      regardless of spacing. */
  function Content(s: string): string
    decreases |s|
  {
    if |s| == 0 then "" else (if IsSpace(s[0]) then "" else [s[0]]) + Content(s[1..])
  }

  /** No two neighbouring characters are both white space. */
  predicate NoDoubleSpace(s: string) {
    forall k :: 0 <= k < |s| - 1 ==> !IsSpace(s[k]) || !IsSpace(s[k + 1])
  }

  /** Every character is white space. */
  predicate AllSpace(s: string) {
    forall k :: 0 <= k < |s| ==> IsSpace(s[k])
  }

  /** Content distributes over concatenation. */
  lemma {:induction false} ContentAppend(a: string, b: string)
    ensures Content(a + b) == Content(a) + Content(b)
    decreases |a|
  {
    if |a| == 0 {
      assert a + b == b;
    } else {
      assert (a + b)[0] == a[0];
      assert (a + b)[1..] == a[1..] + b;
      ContentAppend(a[1..], b);
    }
  }

  /** A string of white space has no content. */
  lemma {:induction false} AllSpaceNoContent(s: string)
    requires AllSpace(s)
    ensures Content(s) == ""
    decreases |s|
  {
    if |s| > 0 {
      AllSpaceNoContent(s[1..]);
    }
  }

  /** Where the white-space run starting at position `i` ends. */
  function RunEnd(s: string, i: nat): (j: nat)
    requires i <= |s|
    ensures i <= j <= |s|
    ensures forall k :: i <= k < j ==> IsSpace(s[k])
    ensures j == |s| || !IsSpace(s[j])
    decreases |s| - i
  {
    if i < |s| && IsSpace(s[i]) then RunEnd(s, i + 1) else i
  }

  /** Where the white-space run ending at position `j` starts, going no
      lower than `lo`. */
  function RunStart(s: string, lo: nat, j: nat): (i: nat)
    requires lo <= j <= |s|
    ensures lo <= i <= j
    ensures forall k :: i <= k < j ==> IsSpace(s[k])
    ensures i == lo || !IsSpace(s[i - 1])
    decreases j
  {
    if j > lo && IsSpace(s[j - 1]) then RunStart(s, lo, j - 1) else j
  }

  /** A stretch of white space has no content. */
  lemma SpaceStretchNoContent(s: string, i: nat, j: nat)
    requires i <= j <= |s|
    requires forall k :: i <= k < j ==> IsSpace(s[k])
    ensures Content(s[i..j]) == ""
  {
    assert AllSpace(s[i..j]) by {
      forall k | 0 <= k < j - i
        ensures IsSpace(s[i..j][k])
      {
        assert s[i..j][k] == s[i + k];
      }
    }
    AllSpaceNoContent(s[i..j]);
  }

  /** Content distributes over a concatenation of three. */
  lemma ContentOfThree(a: string, b: string, c: string)
    ensures Content(a + b + c) == Content(a) + Content(b) + Content(c)
  {
    ContentAppend(a + b, c);
    ContentAppend(a, b);
  }

  /** The content of a text is that of its three pieces around `i` and `j`. */
  lemma ContentOfPieces(s: string, i: nat, j: nat)
    requires i <= j <= |s|
    ensures Content(s) == Content(s[..i]) + Content(s[i..j]) + Content(s[j..])
  {
    PiecesJoin(s, i, j);
    ContentOfThree(s[..i], s[i..j], s[j..]);
  }

  /** The three pieces around `i` and `j` make up the text. */
  lemma PiecesJoin(s: string, i: nat, j: nat)
    requires i <= j <= |s|
    ensures s[..i] + s[i..j] + s[j..] == s
  {
  }

  /** `trim`: white space removed at both ends. The result is a piece of `s`
      with the same content that neither starts nor ends with white space;
      these facts determine it, since everything outside it must then be
      white space. */
  function Trim(s: string): (r: string)
    ensures |r| == 0 || (!IsSpace(r[0]) && !IsSpace(r[|r| - 1]))
    ensures Content(r) == Content(s)
    ensures Contains(s, r)
  {
    var i := RunEnd(s, 0);
    var j := RunStart(s, i, |s|);
    SpaceStretchNoContent(s, 0, i);
    SpaceStretchNoContent(s, j, |s|);
    ContentOfPieces(s, i, j);
    assert s[0..i] == s[..i];
    assert s[j..|s|] == s[j..];
    assert OccursAt(s, s[i..j], i);
    s[i..j]
  }

  /** Trimming a trimmed text changes nothing. */
  lemma TrimIdempotent(s: string)
    ensures Trim(Trim(s)) == Trim(s)
  {
    var r := Trim(s);
    assert RunEnd(r, 0) == 0;
    assert RunStart(r, 0, |r|) == |r|;
    assert r[0..|r|] == r;
  }

  /** Drops the white-space run at the front of `s`. */
  function DropRun(s: string): (r: string)
    ensures |r| <= |s| && r == s[|s| - |r|..]
    ensures Content(s[..|s| - |r|]) == ""
    ensures |r| == 0 || !IsSpace(r[0])
    ensures |s| > 0 && IsSpace(s[0]) ==> |r| < |s|
  {
    var i := RunEnd(s, 0);
    SpaceStretchNoContent(s, 0, i);
    assert s[0..i] == s[..i];
    s[i..]
  }

  /** `replace(/\s+/g, ' ')`: every maximal run of white space becomes one
      space. The content is unchanged, white space survives only as single
      spaces, and the text starts with a space exactly when `s` starts with
      white space. */
  function Collapse(s: string): (r: string)
    ensures NoDoubleSpace(r)
    ensures forall k :: 0 <= k < |r| && IsSpace(r[k]) ==> r[k] == ' '
    ensures Content(r) == Content(s)
    ensures |r| > 0 <==> |s| > 0
    ensures |s| > 0 ==> (IsSpace(r[0]) <==> IsSpace(s[0]))
    decreases |s|
  {
    if |s| == 0 then ""
    else if IsSpace(s[0]) then
      var rest := DropRun(s);
      var tail := Collapse(rest);
      assert s == s[..|s| - |rest|] + rest;
      ContentAppend(s[..|s| - |rest|], rest);
      ContentAppend(" ", tail);
      " " + tail
    else
      var tail := Collapse(s[1..]);
      assert s == [s[0]] + s[1..];
      ContentAppend([s[0]], s[1..]);
      ContentAppend([s[0]], tail);
      [s[0]] + tail
  }

  /** Over `x + y`, a white-space run starting inside `x` ends where it
      ends in `x` when `x` ends in a non-space character. */
  lemma {:induction false} RunEndWithin(x: string, y: string, i: nat)
    requires i < |x| && !IsSpace(x[|x| - 1])
    ensures RunEnd(x + y, i) == RunEnd(x, i) < |x|
    decreases |x| - i
  {
    assert (x + y)[i] == x[i];
    if IsSpace(x[i]) {
      RunEndWithin(x, y, i + 1);
    }
  }

  /** A white-space run filling the rest of `w` ends where `w` does when
      `y` does not start with white space. */
  lemma {:induction false} RunEndAcross(w: string, y: string, i: nat)
    requires i <= |w| && forall k :: i <= k < |w| ==> IsSpace(w[k])
    requires |y| == 0 || !IsSpace(y[0])
    ensures RunEnd(w + y, i) == |w|
    decreases |w| - i
  {
    if i < |w| {
      assert (w + y)[i] == w[i];
      RunEndAcross(w, y, i + 1);
    } else if |y| > 0 {
      assert (w + y)[i] == y[0];
    }
  }

  /** Dropping the leading run of `x + y` drops that of `x`, when `x` ends
      in a non-space character. */
  lemma DropRunWithin(x: string, y: string)
    requires |x| > 0 && !IsSpace(x[|x| - 1])
    ensures DropRun(x + y) == DropRun(x) + y
    ensures |DropRun(x)| > 0 && DropRun(x)[|DropRun(x)| - 1] == x[|x| - 1]
  {
    RunEndWithin(x, y, 0);
    var j := RunEnd(x, 0);
    assert (x + y)[j..] == x[j..] + y;
  }

  /** A run of white space collapses to one space. */
  lemma CollapseSpaceRun(w: string)
    requires |w| > 0 && AllSpace(w)
    ensures Collapse(w) == " "
  {
    RunEndAcross(w, "", 0);
    assert w + "" == w;
  }

  /** Text without white space is left as it is. */
  lemma {:induction false} CollapseNoSpace(x: string)
    requires forall k :: 0 <= k < |x| ==> !IsSpace(x[k])
    ensures Collapse(x) == x
    decreases |x|
  {
    if |x| > 0 {
      CollapseNoSpace(x[1..]);
      assert [x[0]] + x[1..] == x;
    }
  }

  /** Collapsing goes piece by piece when a piece ends in a non-space
      character: no run spans the boundary. */
  lemma {:induction false} CollapseAppend(x: string, y: string)
    requires |x| > 0 && !IsSpace(x[|x| - 1])
    ensures Collapse(x + y) == Collapse(x) + Collapse(y)
    decreases |x|, 1
  {
    if IsSpace(x[0]) {
      CollapseAppendAfterRun(x, y);
    } else {
      CollapseAppendAfterChar(x, y);
    }
  }

  /** `CollapseAppend` when `x` starts with a white-space run. */
  lemma {:induction false} CollapseAppendAfterRun(x: string, y: string)
    requires |x| > 0 && !IsSpace(x[|x| - 1]) && IsSpace(x[0])
    ensures Collapse(x + y) == Collapse(x) + Collapse(y)
    decreases |x|, 0
  {
    var s := x + y;
    assert s[0] == x[0];
    var rx := DropRun(x);
    DropRunWithin(x, y);
    CollapseAppend(rx, y);
    assert Collapse(s) == " " + Collapse(rx + y);
    assert Collapse(x) == " " + Collapse(rx);
    Associative(" ", Collapse(rx), Collapse(y));
  }

  /** `CollapseAppend` when `x` starts with a non-space character. */
  lemma {:induction false} CollapseAppendAfterChar(x: string, y: string)
    requires |x| > 0 && !IsSpace(x[|x| - 1]) && !IsSpace(x[0])
    ensures Collapse(x + y) == Collapse(x) + Collapse(y)
    decreases |x|, 0
  {
    var s := x + y;
    assert s[0] == x[0];
    assert s[1..] == x[1..] + y;
    CollapseCharHead(s);
    CollapseCharHead(x);
    if |x| > 1 {
      CollapseAppend(x[1..], y);
      Associative([x[0]], Collapse(x[1..]), Collapse(y));
    } else {
      assert x[1..] == "";
    }
  }

  /** A text starting with a non-space character keeps it in front of the
      collapsed rest. */
  lemma CollapseCharHead(s: string)
    requires |s| > 0 && !IsSpace(s[0])
    ensures Collapse(s) == [s[0]] + Collapse(s[1..])
  {
  }

  /** Between two pieces, the first ending in a non-space character and the
      second starting with one (or empty), a run of white space becomes
      exactly one space: words are never glued together. */
  lemma CollapseGap(x: string, w: string, y: string)
    requires |x| > 0 && !IsSpace(x[|x| - 1])
    requires |w| > 0 && AllSpace(w)
    requires |y| == 0 || !IsSpace(y[0])
    ensures Collapse(x + w + y) == Collapse(x) + " " + Collapse(y)
  {
    Associative(x, w, y);
    CollapseAppend(x, w + y);
    CollapseRunBefore(w, y);
    Associative(Collapse(x), " ", Collapse(y));
  }

  /** A run of white space in front of a piece that does not start with
      white space becomes one space. */
  lemma CollapseRunBefore(w: string, y: string)
    requires |w| > 0 && AllSpace(w)
    requires |y| == 0 || !IsSpace(y[0])
    ensures Collapse(w + y) == " " + Collapse(y)
  {
    RunEndAcross(w, y, 0);
    assert (w + y)[0] == w[0];
    assert (w + y)[|w|..] == y;
  }

  /** Concatenation is associative. */
  lemma Associative(x: string, w: string, y: string)
    ensures x + w + y == x + (w + y)
  {
  }

  /** Two words three spaces apart keep one space between them. */
  lemma CollapseKeepsWordsApart()
    ensures Collapse("a   b") == "a b"
  {
    assert "a   b" == "a" + "   " + "b" && "a" + " " + "b" == "a b";
    assert AllSpace("   ") && !IsSpace('a') && !IsSpace('b');
    CollapseGap("a", "   ", "b");
    CollapseNoSpace("a");
    CollapseNoSpace("b");
  }

  /** A text starting with a non-space character has content. */
  lemma ContentOfNonSpaceStart(s: string)
    ensures |s| > 0 && !IsSpace(s[0]) ==> Content(s) != ""
  {
    if |s| > 0 && !IsSpace(s[0]) {
      assert Content(s) == [s[0]] + Content(s[1..]);
    }
  }

  /** Slices keep the absence of double white space. */
  lemma NoDoubleSpaceSlice(s: string, i: nat, j: nat)
    requires i <= j <= |s| && NoDoubleSpace(s)
    ensures NoDoubleSpace(s[i..j])
  {
    var t := s[i..j];
    forall k | 0 <= k < |t| - 1
      ensures !IsSpace(t[k]) || !IsSpace(t[k + 1])
    {
      assert t[k] == s[i + k] && t[k + 1] == s[i + k + 1];
    }
  }

  /** The longest description kept. */
  const MaxDescription: nat := 160

  /** The description used when the project's own is blank. */
  const FallbackDescription: string := "Project details from Aquawood Patagonia."

  /** The fallback is itself a well-formed description. */
  lemma FallbackWellFormed()
    ensures 0 < |FallbackDescription| <= MaxDescription
    ensures !IsSpace(FallbackDescription[0])
    ensures NoDoubleSpace(FallbackDescription)
  {
    var f := FallbackDescription;
    forall k | 0 <= k < |f| - 1
      ensures !IsSpace(f[k]) || !IsSpace(f[k + 1])
    {
      assert f[k] == ' ' ==> f[k + 1] != ' ';
    }
  }

  /** The normalised description (collapsed, then trimmed) keeps the content,
      does not start with white space and has no two white-space characters
      in a row. */
  lemma NormalisedWellFormed(description: string)
    ensures Content(Trim(Collapse(description))) == Content(description)
    ensures |Trim(Collapse(description))| == 0 || !IsSpace(Trim(Collapse(description))[0])
    ensures NoDoubleSpace(Trim(Collapse(description)))
  {
    var collapsed := Collapse(description);
    var i := RunEnd(collapsed, 0);
    var j := RunStart(collapsed, i, |collapsed|);
    assert Trim(collapsed) == collapsed[i..j];
    NoDoubleSpaceSlice(collapsed, i, j);
  }

  /** The meta description of a project: white-space runs collapsed, the
      ends trimmed, the first 160 characters kept, and the fixed fallback
      when nothing remains. The result is never empty, at most 160
      characters long, does not start with white space and never has two
      white-space characters in a row; it is the fallback exactly when the
      description has no content, and otherwise the start of the normalised
      description, all of it when that fits. */
  function MetaDescription(description: string): (r: string)
    ensures 0 < |r| <= MaxDescription
    ensures !IsSpace(r[0])
    ensures NoDoubleSpace(r)
    ensures Content(description) == "" ==> r == FallbackDescription
    ensures Content(description) != "" ==> IsPrefix(r, Trim(Collapse(description)))
    ensures Content(description) != "" && |Trim(Collapse(description))| <= MaxDescription ==>
              r == Trim(Collapse(description)) && Content(r) == Content(description)
    ensures Content(description) != "" && |Trim(Collapse(description))| > MaxDescription ==>
              |r| == MaxDescription
  {
    var trimmed := Trim(Collapse(description));
    var cut := trimmed[..if |trimmed| < MaxDescription then |trimmed| else MaxDescription];
    NormalisedWellFormed(description);
    NoDoubleSpaceSlice(trimmed, 0, |cut|);
    ContentOfNonSpaceStart(trimmed);
    FallbackWellFormed();
    if cut == "" then FallbackDescription else cut
  }
}

=== FILE: projects.dfy ===
/** The projects page (src/pages/Projects.tsx; the administration page
    groups its list the same way): the fetched project rows and image rows
    are joined into one entry per project, each carrying its own images in
    fetched order, and rendered as cards linking to the detail page. The
    two fetches are inputs; a missing result (`null`) is an empty list. */
module Projects {
  import opened Wrappers
  import opened Records
  import Router
  import ProjectDetail

  /** `data || []`. */
  function OrEmpty<T>(data: Option<seq<T>>): seq<T> {
    if data.Some? then data.value else []
  }

  // ---------------------------------------------------------------------
  // Grouping.

  /** `images.filter(img => img.project_id === id)`: the image rows of one
      project, in fetched order. */
  function ImagesOf(rows: seq<ProjectImage>, id: string): (r: seq<ProjectImage>)
    ensures |r| <= |rows|
    ensures forall k :: 0 <= k < |r| ==> r[k].projectId == id
    ensures forall x :: x in r <==> x in rows && x.projectId == id
    decreases |rows|
  {
    if |rows| == 0 then []
    else
      var rest := ImagesOf(rows[1..], id);
      assert forall x :: x in rows <==> x == rows[0] || x in rows[1..];
      if rows[0].projectId == id then [rows[0]] + rest else rest
  }

  /** One entry per project, in the projects' order, each with its images. */
  function Group(projects: seq<Project>, rows: seq<ProjectImage>): (groups: seq<ProjectWithImages>)
    ensures |groups| == |projects|
    ensures forall k :: 0 <= k < |groups| ==>
              groups[k].project == projects[k] && groups[k].images == ImagesOf(rows, projects[k].id)
    decreases |projects|
  {
    if |projects| == 0 then []
    else [ProjectWithImages(projects[0], ImagesOf(rows, projects[0].id))] + Group(projects[1..], rows)
  }

  /** The list `loadProjects` stores, from the two fetch results. */
  function GroupProjects(projects: Option<seq<Project>>, images: Option<seq<ProjectImage>>): (groups: seq<ProjectWithImages>)
    ensures |groups| == |OrEmpty(projects)|
    ensures forall k :: 0 <= k < |groups| ==>
              groups[k].project == OrEmpty(projects)[k] &&
              groups[k].images == ImagesOf(OrEmpty(images), OrEmpty(projects)[k].id)
    ensures projects.None? ==> groups == []
    ensures images.None? ==> forall k :: 0 <= k < |groups| ==> groups[k].images == []
  {
    Group(OrEmpty(projects), OrEmpty(images))
  }

  /** The list the page shows once `loadProjects` has finished. Each query
      either fails or returns a possibly null result. The image query is
      sent only after the project query succeeds. A failure on either is
      thrown, caught and logged, and the list keeps its initial value `[]`.
      When both succeed the list holds one entry per fetched project, with
      that project's own image rows. */
  function LoadProjects<E>(projectsQuery: Result<Option<seq<Project>>, E>,
                           imagesQuery: Result<Option<seq<ProjectImage>>, E>): (shown: seq<ProjectWithImages>)
    ensures projectsQuery.Failure? || imagesQuery.Failure? ==> shown == []
    ensures projectsQuery.Success? && imagesQuery.Success? ==>
              |shown| == |OrEmpty(projectsQuery.value)| &&
              forall k :: 0 <= k < |shown| ==>
                shown[k].project == OrEmpty(projectsQuery.value)[k] &&
                shown[k].images == ImagesOf(OrEmpty(imagesQuery.value), shown[k].project.id)
  {
    if projectsQuery.Failure? then []
    else if imagesQuery.Failure? then []
    else GroupProjects(projectsQuery.value, imagesQuery.value)
  }

  /** A failed image query hides every project, whereas an image query
      that returns null keeps the projects and shows them without images. */
  lemma ImageFailureHidesProjects<E>(projects: seq<Project>, error: E)
    requires |projects| > 0
    ensures LoadProjects(Success(Some(projects)), Failure(error)) == []
    ensures |LoadProjects<E>(Success(Some(projects)), Success(None))| == |projects|
  {
  }

  /** Filtering distributes over concatenation, so the rows of one project
      keep their relative fetched order. */
  lemma {:induction false} ImagesOfAppend(a: seq<ProjectImage>, b: seq<ProjectImage>, id: string)
    ensures ImagesOf(a + b, id) == ImagesOf(a, id) + ImagesOf(b, id)
    decreases |a|
  {
    if |a| == 0 {
      assert a + b == b;
    } else {
      assert (a + b)[0] == a[0];
      assert (a + b)[1..] == a[1..] + b;
      ImagesOfAppend(a[1..], b, id);
    }
  }

  /** Rows that all belong to the project are all kept, unchanged. */
  lemma {:induction false} ImagesOfAllMatch(rows: seq<ProjectImage>, id: string)
    requires forall k :: 0 <= k < |rows| ==> rows[k].projectId == id
    ensures ImagesOf(rows, id) == rows
    decreases |rows|
  {
    if |rows| > 0 {
      ImagesOfAllMatch(rows[1..], id);
    }
  }

  /** The rows come sorted by `display_order`. */
  predicate SortedByDisplayOrder(rows: seq<ProjectImage>) {
    forall i, j :: 0 <= i < j < |rows| ==> rows[i].displayOrder <= rows[j].displayOrder
  }

  /** Grouping keeps each project's images sorted by `display_order`. */
  lemma {:induction false} ImagesOfSorted(rows: seq<ProjectImage>, id: string)
    requires SortedByDisplayOrder(rows)
    ensures SortedByDisplayOrder(ImagesOf(rows, id))
    decreases |rows|
  {
    if |rows| > 0 {
      ImagesOfSorted(rows[1..], id);
      var rest := ImagesOf(rows[1..], id);
      forall x | x in rest
        ensures rows[0].displayOrder <= x.displayOrder
      {
        var j :| 0 <= j < |rows[1..]| && rows[1..][j] == x;
        assert rows[j + 1] == x;
      }
    }
  }

  // ---------------------------------------------------------------------
  // Counting.

  /** The number of images over all entries. */
  function TotalImages(groups: seq<ProjectWithImages>): nat
    decreases |groups|
  {
    if |groups| == 0 then 0 else |groups[0].images| + TotalImages(groups[1..])
  }

  /** No two projects share an id (the table's primary key). */
  predicate DistinctIds(projects: seq<Project>) {
    forall i, j :: 0 <= i < j < |projects| ==> projects[i].id != projects[j].id
  }

  /** Some project has this id. */
  predicate HasProject(projects: seq<Project>, id: string) {
    exists k :: 0 <= k < |projects| && projects[k].id == id
  }

  /** The image rows that reference one of the projects. */
  function Referenced(rows: seq<ProjectImage>, projects: seq<Project>): (r: seq<ProjectImage>)
    ensures |r| <= |rows|
    ensures (forall k :: 0 <= k < |rows| ==> HasProject(projects, rows[k].projectId)) ==> r == rows
    decreases |rows|
  {
    if |rows| == 0 then []
    else if HasProject(projects, rows[0].projectId) then [rows[0]] + Referenced(rows[1..], projects)
    else Referenced(rows[1..], projects)
  }

  /** How many projects have this id. */
  function Hits(projects: seq<Project>, id: string): nat
    decreases |projects|
  {
    if |projects| == 0 then 0 else (if projects[0].id == id then 1 else 0) + Hits(projects[1..], id)
  }

  /** With distinct ids, an id is held by one project or by none. */
  lemma {:induction false} DistinctHits(projects: seq<Project>, id: string)
    requires DistinctIds(projects)
    ensures Hits(projects, id) == if HasProject(projects, id) then 1 else 0
    decreases |projects|
  {
    if |projects| > 0 {
      var rest := projects[1..];
      assert DistinctIds(rest) by {
        forall i, j | 0 <= i < j < |rest| ensures rest[i].id != rest[j].id {
          assert rest[i] == projects[i + 1] && rest[j] == projects[j + 1];
        }
      }
      DistinctHits(rest, id);
      if projects[0].id == id {
        assert !HasProject(rest, id) by {
          forall k | 0 <= k < |rest| ensures rest[k].id != id {
            assert rest[k] == projects[k + 1];
          }
        }
      } else {
        assert HasProject(projects, id) <==> HasProject(rest, id) by {
          if HasProject(projects, id) {
            var k :| 0 <= k < |projects| && projects[k].id == id;
            assert rest[k - 1] == projects[k];
          }
          if HasProject(rest, id) {
            var k :| 0 <= k < |rest| && rest[k].id == id;
            assert projects[k + 1] == rest[k];
          }
        }
      }
    }
  }

  /** One more row at the front adds it to the entry of every project it
      references. */
  lemma {:induction false} TotalStep(projects: seq<Project>, r: ProjectImage, rest: seq<ProjectImage>)
    ensures TotalImages(Group(projects, [r] + rest)) == TotalImages(Group(projects, rest)) + Hits(projects, r.projectId)
    decreases |projects|
  {
    if |projects| > 0 {
      assert ([r] + rest)[1..] == rest;
      TotalStep(projects[1..], r, rest);
    }
  }

  /** Rows referencing no fetched project appear in no entry, and every
      other row in exactly one: the grouped image count is the number of
      referencing rows. */
  lemma {:induction false} GroupedCountIsReferenced(projects: seq<Project>, rows: seq<ProjectImage>)
    requires DistinctIds(projects)
    ensures TotalImages(Group(projects, rows)) == |Referenced(rows, projects)|
    decreases |rows|
  {
    if |rows| == 0 {
      assert TotalImages(Group(projects, rows)) == 0 by { NoRowsNoImages(projects, rows); }
    } else {
      assert rows == [rows[0]] + rows[1..];
      TotalStep(projects, rows[0], rows[1..]);
      DistinctHits(projects, rows[0].projectId);
      GroupedCountIsReferenced(projects, rows[1..]);
    }
  }

  /** Without rows no entry has images. */
  lemma {:induction false} NoRowsNoImages(projects: seq<Project>, rows: seq<ProjectImage>)
    requires |rows| == 0
    ensures TotalImages(Group(projects, rows)) == 0
    decreases |projects|
  {
    if |projects| > 0 {
      NoRowsNoImages(projects[1..], rows);
    }
  }

  /** The grouped image count never exceeds the number of fetched rows, and
      equals it when every row references a fetched project. */
  lemma GroupedCountBound(projects: Option<seq<Project>>, images: Option<seq<ProjectImage>>)
    requires DistinctIds(OrEmpty(projects))
    ensures TotalImages(GroupProjects(projects, images)) <= |OrEmpty(images)|
    ensures (forall k :: 0 <= k < |OrEmpty(images)| ==>
               HasProject(OrEmpty(projects), OrEmpty(images)[k].projectId)) ==>
              TotalImages(GroupProjects(projects, images)) == |OrEmpty(images)|
  {
    GroupedCountIsReferenced(OrEmpty(projects), OrEmpty(images));
  }

  // ---------------------------------------------------------------------
  // Cards.

  /** The picture at the top of a card. */
  datatype Cover = Photo(url: string) | NoImagePlaceholder

  /** `project.images[0]` when there is one, else the "No image" box. */
  function CardCover(g: ProjectWithImages): (c: Cover)
    ensures c.Photo? <==> |g.images| > 0
    ensures c.Photo? ==> c.url == g.images[0].imageUrl
  {
    if |g.images| > 0 then Photo(g.images[0].imageUrl) else NoImagePlaceholder
  }

  /** A card: where it links, its cover, and the project's name and
      description. */
  datatype Card = Card(link: string, cover: Cover, name: string, description: string)

  /** The page body: the empty-state message, or one card per project. */
  datatype ProjectsView = EmptyState | Cards(cards: seq<Card>)

  /** The page for the grouped list. */
  function View(groups: seq<ProjectWithImages>): (v: ProjectsView)
    ensures v == EmptyState <==> |groups| == 0
    ensures v.Cards? ==>
              |v.cards| == |groups| &&
              forall k :: 0 <= k < |groups| ==>
                v.cards[k] == Card(Router.ProjectLink(groups[k].project.id), CardCover(groups[k]),
                                   groups[k].project.name, groups[k].project.description)
  {
    if |groups| == 0 then EmptyState
    else Cards(seq(|groups|, k requires 0 <= k < |groups| =>
      Card(Router.ProjectLink(groups[k].project.id), CardCover(groups[k]),
           groups[k].project.name, groups[k].project.description)))
  }

  /** The cover a card shows is the slide the detail page opens on. */
  lemma CoverIsFirstSlide(g: ProjectWithImages)
    requires |g.images| > 0
    ensures ProjectDetail.Render(Some(g), 0).Slide?
    ensures ProjectDetail.Render(Some(g), 0).url == CardCover(g).url
  {
  }

  /** A click on a card's link, or following its `href`, makes the hash
      router resolve the detail route, for every id without a `/`. */
  lemma CardLinkOpensDetail(groups: seq<ProjectWithImages>, k: nat)
    requires k < |groups| && '/' !in groups[k].project.id
    ensures View(groups).Cards?
    ensures Router.Resolve(Router.SiteRoutes(), Router.HomePage,
                           Router.CurrentPath(Router.AssignHash(View(groups).cards[k].link)))
            == Router.ProjectDetailPage
    ensures Router.Resolve(Router.SiteRoutes(), Router.HomePage,
                           Router.CurrentPath(Router.FollowHref(View(groups).cards[k].link)))
            == Router.ProjectDetailPage
  {
    Router.ProjectLinkOpensDetail(groups[k].project.id);
  }
}

=== FILE: records.dfy ===
/** The row shapes of the two database tables the pages read and write
    (src/types/database.ts). Timestamps are opaque strings. */
module Records {

  /** A row of the `projects` table. */
  datatype Project = Project(
    id: string,
    name: string,
    description: string,
    createdAt: string,
    updatedAt: string)

  /** A row of the `project_images` table. */
  datatype ProjectImage = ProjectImage(
    id: string,
    projectId: string,
    imageUrl: string,
    displayOrder: int,
    createdAt: string)

  /** A project together with the image rows that belong to it
      (`ProjectWithImages`). */
  datatype ProjectWithImages = ProjectWithImages(project: Project, images: seq<ProjectImage>)
}

=== FILE: router.dfy ===
/** The hand-written hash router (src/components/Router.tsx): the current
    path is read from the URL fragment (section 3.5 of RFC 3986), resolved
    against an ordered route table by first match, and written back by
    `navigate` and `Link`. The browser's `location.hash` is an explicit
    string here; the `hashchange` listener becomes "recompute CurrentPath
    from the new hash". */
module Router {
  import opened Strings
  import opened Wrappers
  import opened UrlFragment

  /** `location.hash.slice(1)`: the hash without its first character (the
      `#`), or "" when the hash is empty. */
  function FragmentText(hash: string): string {
    if |hash| == 0 then "" else hash[1..]
  }

  /** `location.hash.slice(1) || '/'`, evaluated at mount and on every
      `hashchange` notification. */
  function CurrentPath(hash: string): (path: string)
    ensures path != ""
    ensures FragmentText(hash) != "" ==> path == FragmentText(hash)
    ensures FragmentText(hash) == "" ==> path == "/"
  {
    if FragmentText(hash) == "" then "/" else FragmentText(hash)
  }

  /** What `location.hash` reads back after the assignment
      `location.hash = p`: the browser drops one leading `#` from `p` and
      stores the rest as the fragment, with tab and newline removed and the
      characters of the fragment percent-encode set percent-encoded; the
      getter returns "" for an empty fragment and `#` followed by the
      fragment otherwise. */
  function AssignHash(p: string): (hash: string)
    ensures hash == "" || hash[0] == '#'
    ensures FragmentText(hash) == Encode(if |p| > 0 && p[0] == '#' then p[1..] else p)
  {
    var fragment := Encode(if |p| > 0 && p[0] == '#' then p[1..] else p);
    if fragment == "" then "" else "#" + fragment
  }

  /** What `location.hash` reads back after the browser follows the `href`
      `#${to}` of a `Link` to `to` itself (when the click handler does not run): the
      URL parser trims C0 controls and spaces from both ends of the whole
      `href` (which, as it starts with `#`, trims only the end of `to`),
      and stores the rest after the `#` as the fragment. */
  function FollowHref(to: string): (hash: string)
    ensures hash == "" || hash[0] == '#'
    ensures FragmentText(hash) == Encode(TrimEnd(to))
  {
    var fragment := Encode(TrimEnd(to));
    if fragment == "" then "" else "#" + fragment
  }

  /** After `navigate(p)` (or a click on `Link` to `p`) and the change
      notification that follows, the router's current path holds only
      characters the browser stores verbatim, and is `p` itself when `p`
      is made of such characters and does not start with `#`; following the
      link's `href` instead lands on the same path. An empty target lands
      on "/". */
  lemma NavigateSetsCurrentPath(p: string)
    ensures Verbatim(CurrentPath(AssignHash(p))) && Verbatim(CurrentPath(FollowHref(p)))
    ensures Verbatim(p) && p != "" && p[0] != '#' ==> CurrentPath(AssignHash(p)) == p
    ensures Verbatim(p) && p != "" ==> CurrentPath(FollowHref(p)) == p
    ensures p == "" ==> CurrentPath(AssignHash(p)) == "/" && CurrentPath(FollowHref(p)) == "/"
  {
    assert Verbatim("/");
    if Verbatim(p) && p != "" {
      assert !IsC0OrSpace(p[|p| - 1]);
      EncodeVerbatim(p);
      if p[0] != '#' {
        EncodeVerbatim(p);
      }
    }
  }

  /** A project id with a space reaches the router as `%20`. */
  lemma NavigateEncodesSpace()
    ensures CurrentPath(AssignHash("/projects/a b")) == "/projects/a%20b"
  {
    EncodeSpacedPath();
    NavigateToPath("/projects/a b");
  }

  /** Navigating to a path that does not start with `#` makes its stored
      form the current path, unless that is empty. */
  lemma NavigateToPath(p: string)
    requires p != "" && p[0] != '#'
    ensures Encode(p) != "" ==> CurrentPath(AssignHash(p)) == Encode(p)
  {
  }

  /** The stored form of the sample path with a space. */
  lemma EncodeSpacedPath()
    ensures Encode("/projects/a b") == "/projects/a%20b"
  {
    assert "/projects/a b" == "/projects/a" + " " + "b";
    assert "/projects/a%20b" == "/projects/a" + "%20" + "b";
    assert Verbatim("/projects/a") && Verbatim("b");
    EncodeSplice("/projects/a", " ", "b");
    EncodeSpace();
  }

  /** A trailing space of a followed `href` is trimmed away. */
  lemma FollowHrefTrimsEnd()
    ensures CurrentPath(FollowHref("/projects/a ")) == "/projects/a"
  {
    assert "/projects/a " == "/projects/a" + " ";
    TrimEndAfter("/projects/a", " ");
    assert TrimEnd(" ") == "";
    assert "/projects/a" + "" == "/projects/a";
    assert Verbatim("/projects/a");
    EncodeVerbatim("/projects/a");
  }

  /** One entry of the route table: a path pattern and what to render. */
  datatype Route<C> = Route(path: string, component: C)

  /** A pattern segment that starts with `:` binds any path segment. */
  predicate IsParam(segment: string) {
    |segment| > 0 && segment[0] == ':'
  }

  /** The segment-wise comparison of lines 32-42: equally many segments, and
      every literal segment equal (case-sensitively) to the segment at the
      same position. */
  predicate SegmentsMatch(patternParts: seq<string>, pathParts: seq<string>) {
    && |patternParts| == |pathParts|
    && forall i :: 0 <= i < |patternParts| ==> IsParam(patternParts[i]) || patternParts[i] == pathParts[i]
  }

  /** Whether one route pattern accepts a path: by exact equality, or, for a
      pattern containing `:`, by the segment-wise comparison. */
  predicate Matches(pattern: string, path: string): (m: bool)
    ensures pattern == path ==> m
    ensures ':' !in pattern ==> (m <==> pattern == path)
    ensures m && pattern != path ==> |Split(pattern, '/')| == |Split(path, '/')|
  {
    || pattern == path
    || (':' in pattern && SegmentsMatch(Split(pattern, '/'), Split(path, '/')))
  }

  /** `matchRoute`: the component of the first route in table order that
      matches the path, or `defaultRoute` when none does. */
  function Resolve<C>(routes: seq<Route<C>>, defaultRoute: C, path: string): (c: C)
    ensures (forall k :: 0 <= k < |routes| ==> !Matches(routes[k].path, path)) ==> c == defaultRoute
    ensures forall k :: (0 <= k < |routes| && Matches(routes[k].path, path) &&
              (forall j :: 0 <= j < k ==> !Matches(routes[j].path, path))) ==> c == routes[k].component
    decreases |routes|
  {
    if |routes| == 0 then defaultRoute
    else if Matches(routes[0].path, path) then routes[0].component
    else
      var c := Resolve(routes[1..], defaultRoute, path);
      assert forall k :: 1 <= k < |routes| ==> routes[k] == routes[1..][k - 1];
      c
  }

  // ---------------------------------------------------------------------
  // An independent reading of parametric matching: the path is the pattern
  // with every `:` segment replaced by some slash-free value.

  /** The pattern's segments with each parameter segment replaced by the
      value at the same position. */
  function Fill(patternParts: seq<string>, values: seq<string>): (parts: seq<string>)
    requires |values| == |patternParts|
    ensures |parts| == |patternParts|
  {
    seq(|patternParts|, i requires 0 <= i < |patternParts| =>
      if IsParam(patternParts[i]) then values[i] else patternParts[i])
  }

  /** The path is an instance of the pattern: some choice of slash-free
      values for its parameters, joined with `/`, spells the path. */
  ghost predicate IsInstance(pattern: string, path: string) {
    var ps := Split(pattern, '/');
    exists values: seq<string> ::
      && |values| == |ps|
      && (forall i :: 0 <= i < |values| ==> '/' !in values[i])
      && path == Join(Fill(ps, values), '/')
  }

  /** A pattern containing `:` matches a path exactly when the path is an
      instance of the pattern; in particular a parameter segment accepts any
      value, the empty one included, and the segment counts must agree. */
  lemma ParametricMatchIsInstance(pattern: string, path: string)
    requires ':' in pattern
    ensures Matches(pattern, path) <==> IsInstance(pattern, path)
  {
    var ps := Split(pattern, '/');
    var qs := Split(path, '/');
    if Matches(pattern, path) {
      if pattern == path {
        assert Fill(ps, ps) == ps;
      } else {
        assert Fill(ps, qs) == qs;
      }
    }
    if IsInstance(pattern, path) {
      var values: seq<string> :|
        && |values| == |ps|
        && (forall i :: 0 <= i < |values| ==> '/' !in values[i])
        && path == Join(Fill(ps, values), '/');
      var filled := Fill(ps, values);
      assert forall i :: 0 <= i < |filled| ==> '/' !in filled[i];
      SplitJoin(filled, '/');
      assert SegmentsMatch(ps, filled);
    }
  }

  /** A route pattern without `:` matches only the identical path, so
      `/projects` does not match `/projects/`. */
  lemma LiteralRouteMatchesOnlyItself(pattern: string, path: string)
    requires ':' !in pattern
    ensures Matches(pattern, path) <==> pattern == path
  {
  }

  // ---------------------------------------------------------------------
  // `useRouter().getParam`.

  /** `getParam(name)`: the last `/`-segment of the current path when the
      fragment contains `/projects/` and `name` is `id`; null otherwise. The
      hook's `currentPath` state is taken to be in step with `location.hash`,
      as it is after every change notification. */
  function GetParam(hash: string, name: string): (r: Option<string>)
    ensures r.Some? <==> name == "id" && Contains(FragmentText(hash), "/projects/")
    ensures r.Some? ==> '/' !in r.value && IsSuffix("/" + r.value, CurrentPath(hash))
  {
    if Contains(FragmentText(hash), "/projects/") && name == "id" then
      var path := CurrentPath(hash);
      var i :| 0 <= i <= |FragmentText(hash)| - 10 && OccursAt(FragmentText(hash), "/projects/", i);
      assert path[i] == '/';
      LastPartIsSuffix(path, '/');
      Some(Last(Split(path, '/')))
    else
      None
  }

  /** The pages' link target for a project id. */
  function ProjectLink(id: string): string {
    "/projects/" + id
  }

  /** The fixed part of a project link is stored verbatim. */
  lemma ProjectPrefixVerbatim()
    ensures Encode("/projects/") == "/projects/"
    ensures |"/projects/"| > 0 && !IsC0OrSpace("/projects/"[9])
  {
    assert Verbatim("/projects/");
    EncodeVerbatim("/projects/");
  }

  /** Storing a project link stores its id. */
  lemma EncodeProjectLink(id: string)
    ensures Encode(ProjectLink(id)) == ProjectLink(Encode(id))
  {
    ProjectPrefixVerbatim();
    EncodeAppend("/projects/", id);
  }

  /** Trimming a project link trims its id. */
  lemma TrimProjectLink(id: string)
    ensures TrimEnd(ProjectLink(id)) == ProjectLink(TrimEnd(id))
  {
    ProjectPrefixVerbatim();
    TrimEndAfter("/projects/", id);
  }

  /** A stored project link is the project link of the stored id, which
      holds no `/` when the id holds none. */
  lemma StoredProjectLink(id: string)
    requires '/' !in id
    ensures FragmentText(AssignHash(ProjectLink(id))) == ProjectLink(Encode(id))
    ensures FragmentText(FollowHref(ProjectLink(id))) == ProjectLink(Encode(TrimEnd(id)))
    ensures '/' !in Encode(id) && '/' !in Encode(TrimEnd(id))
  {
    EncodeProjectLink(id);
    TrimProjectLink(id);
    EncodeProjectLink(TrimEnd(id));
    EncodeAddsNoSlash(id);
    TrimEndAddsNoSlash(id);
    EncodeAddsNoSlash(TrimEnd(id));
  }

  /** Following a project link and asking for `id` yields the id as the
      browser stores it, which is the id itself when every character of it
      is stored verbatim; any other name yields null. */
  lemma GetParamAfterProjectLink(id: string)
    requires '/' !in id
    ensures GetParam(AssignHash(ProjectLink(id)), "id") == Some(Encode(id))
    ensures Verbatim(id) ==> GetParam(AssignHash(ProjectLink(id)), "id") == Some(id)
    ensures forall name :: name != "id" ==> GetParam(AssignHash(ProjectLink(id)), name) == None
  {
    StoredProjectLink(id);
    GetParamOnProjectPath(AssignHash(ProjectLink(id)), Encode(id));
    if Verbatim(id) {
      EncodeVerbatim(id);
    }
  }

  /** On a fragment that is a project link, `getParam("id")` is the id. */
  lemma GetParamOnProjectPath(hash: string, e: string)
    requires FragmentText(hash) == ProjectLink(e) && '/' !in e
    ensures GetParam(hash, "id") == Some(e)
    ensures forall name :: name != "id" ==> GetParam(hash, name) == None
  {
    assert OccursAt(FragmentText(hash), "/projects/", 0);
    assert ProjectLink(e) == "/projects" + ['/'] + e;
    SplitLastPart("/projects", '/', e);
  }

  /** Opening a project link, through the click handler or by following
      its `href`, resolves to the detail page for every id without a `/`. */
  lemma ProjectLinkOpensDetail(id: string)
    requires '/' !in id
    ensures Resolve(SiteRoutes(), HomePage, CurrentPath(AssignHash(ProjectLink(id)))) == ProjectDetailPage
    ensures Resolve(SiteRoutes(), HomePage, CurrentPath(FollowHref(ProjectLink(id)))) == ProjectDetailPage
  {
    StoredProjectLink(id);
    ProjectLinkResolvesToDetail(Encode(id));
    ProjectLinkResolvesToDetail(Encode(TrimEnd(id)));
  }

  /** The extractor looks only at the text, not at the route: for
      `/projects/42/extra`, which no route of the site table matches, it
      still answers `extra`. */
  lemma GetParamIgnoresRoutes()
    ensures GetParam("#/projects/42/extra", "id") == Some("extra")
  {
    var hash := "#/projects/42/extra";
    assert FragmentText(hash) == "/projects/42/extra";
    assert OccursAt(FragmentText(hash), "/projects/", 0);
    assert "/projects/42/extra" == "/projects/42" + ['/'] + "extra";
    SplitLastPart("/projects/42", '/', "extra");
  }

  // ---------------------------------------------------------------------
  // The site's route table, as sample data.

  /** The pages the site routes to. */
  datatype Page = HomePage | ProjectsPage | ProjectDetailPage | ContactPage | LoginPage | AdminPage

  /** The site's table in its declared order, with the home page as default. */
  function SiteRoutes(): seq<Route<Page>> {
    [ Route("/", HomePage),
      Route("/projects", ProjectsPage),
      Route("/projects/:id", ProjectDetailPage),
      Route("/contact", ContactPage),
      Route("/login", LoginPage),
      Route("/admin", AdminPage) ]
  }

  /** An absolute path with one slash-free segment splits into an empty
      first part and that segment. */
  lemma SplitAbsolute1(a: string)
    requires '/' !in a
    ensures Split("/" + a, '/') == ["", a]
  {
    SplitLastPart("", '/', a);
    assert "" + ['/'] + a == "/" + a;
  }

  /** The same for two slash-free segments. */
  lemma SplitAbsolute2(a: string, b: string)
    requires '/' !in a && '/' !in b
    ensures Split("/" + a + "/" + b, '/') == ["", a, b]
  {
    SplitAbsolute1(a);
    SplitLastPart("/" + a, '/', b);
  }

  /** The same for three slash-free segments. */
  lemma SplitAbsolute3(a: string, b: string, c: string)
    requires '/' !in a && '/' !in b && '/' !in c
    ensures Split("/" + a + "/" + b + "/" + c, '/') == ["", a, b, c]
  {
    SplitAbsolute2(a, b);
    SplitLastPart("/" + a + "/" + b, '/', c);
  }

  /** The split of the detail pattern. */
  lemma SplitDetailPattern()
    ensures Split("/projects/:id", '/') == ["", "projects", ":id"]
  {
    SplitAbsolute2("projects", ":id");
    assert "/projects/:id" == "/" + "projects" + "/" + ":id";
  }

  /** The resolver picks route `k` when it matches and none before it does. */
  lemma ResolvePicks<C>(routes: seq<Route<C>>, defaultRoute: C, path: string, k: nat)
    requires k < |routes| && Matches(routes[k].path, path)
    requires forall j :: 0 <= j < k ==> !Matches(routes[j].path, path)
    ensures Resolve(routes, defaultRoute, path) == routes[k].component
  {
  }

  /** The detail pattern accepts every project link. */
  lemma DetailPatternMatchesProjectLink(id: string)
    requires '/' !in id
    ensures Matches("/projects/:id", ProjectLink(id))
  {
    SplitAbsolute2("projects", id);
    assert ProjectLink(id) == "/" + "projects" + "/" + id;
    SplitDetailPattern();
    assert IsParam(":id");
  }

  /** Every project link resolves to the detail page, whatever the id (even
      an empty one) as long as it holds no `/`. */
  lemma ProjectLinkResolvesToDetail(id: string)
    requires '/' !in id
    ensures Resolve(SiteRoutes(), HomePage, ProjectLink(id)) == ProjectDetailPage
  {
    var path := ProjectLink(id);
    DetailPatternMatchesProjectLink(id);
    LiteralRouteMatchesOnlyItself("/", path);
    LiteralRouteMatchesOnlyItself("/projects", path);
    assert |path| > 9;
    ResolvePicks(SiteRoutes(), HomePage, path, 2);
  }

  /** The exact route wins before the parametric one is tried, and an empty
      trailing segment still satisfies the parameter. */
  lemma SiteTableExamples()
    ensures Resolve(SiteRoutes(), HomePage, "/projects") == ProjectsPage
    ensures Resolve(SiteRoutes(), HomePage, "/projects/42") == ProjectDetailPage
    ensures Resolve(SiteRoutes(), HomePage, "/projects/") == ProjectDetailPage
  {
    LiteralRouteMatchesOnlyItself("/", "/projects");
    ResolvePicks(SiteRoutes(), HomePage, "/projects", 1);
    ProjectLinkResolvesToDetail("42");
    assert ProjectLink("42") == "/projects/42";
    ProjectLinkResolvesToDetail("");
    assert ProjectLink("") == "/projects/";
  }

  /** The resolver falls back to the default when no route matches. */
  lemma ResolveFallsBack<C>(routes: seq<Route<C>>, defaultRoute: C, path: string)
    requires forall k :: 0 <= k < |routes| ==> !Matches(routes[k].path, path)
    ensures Resolve(routes, defaultRoute, path) == defaultRoute
  {
  }

  /** The detail pattern rejects every path of one segment after the root. */
  lemma DetailPatternRejectsOneSegment(a: string)
    requires '/' !in a
    ensures !Matches("/projects/:id", "/" + a)
  {
    SplitDetailPattern();
    SplitAbsolute1(a);
    assert |"/" + a| != |"/projects/:id"| || "/" + a != "/projects/:id";
  }

  /** The detail pattern rejects every path of three segments. */
  lemma DetailPatternRejectsThreeSegments(a: string, b: string, c: string)
    requires '/' !in a && '/' !in b && '/' !in c
    ensures !Matches("/projects/:id", "/" + a + "/" + b + "/" + c)
  {
    SplitDetailPattern();
    SplitAbsolute3(a, b, c);
  }

  /** The literal routes of the site table reject every other path. */
  lemma LiteralSiteRoutesMiss(path: string, k: nat)
    requires k < |SiteRoutes()| && k != 2
    requires path !in {"/", "/projects", "/contact", "/login", "/admin"}
    ensures !Matches(SiteRoutes()[k].path, path)
  {
    var pattern := SiteRoutes()[k].path;
    assert ':' !in pattern && pattern != path;
  }

  /** A path that the detail pattern rejects and that is none of the literal
      routes matches no route of the table. */
  lemma NoSiteRouteMatches(path: string)
    requires !Matches("/projects/:id", path)
    requires path !in {"/", "/projects", "/contact", "/login", "/admin"}
    ensures forall k :: 0 <= k < |SiteRoutes()| ==> !Matches(SiteRoutes()[k].path, path)
  {
    forall k | 0 <= k < |SiteRoutes()|
      ensures !Matches(SiteRoutes()[k].path, path)
    {
      if k != 2 {
        LiteralSiteRoutesMiss(path, k);
      }
    }
  }

  /** Such a path resolves to the default. */
  lemma OnlyDetailCouldMatch(path: string)
    requires !Matches("/projects/:id", path)
    requires path !in {"/", "/projects", "/contact", "/login", "/admin"}
    ensures Resolve(SiteRoutes(), HomePage, path) == HomePage
  {
    NoSiteRouteMatches(path);
    ResolveFallsBack(SiteRoutes(), HomePage, path);
  }

  /** A path no route accepts resolves to the default: `/unknown`. */
  lemma UnknownPathFallsBack()
    ensures Resolve(SiteRoutes(), HomePage, "/unknown") == HomePage
  {
    assert "/" + "unknown" == "/unknown";
    assert "/unknown" !in {"/", "/projects", "/contact", "/login", "/admin"};
    DetailPatternRejectsOneSegment("unknown");
    OnlyDetailCouldMatch("/unknown");
  }

  /** `/projects/42/extra` has one segment too many for `/projects/:id`, so
      it resolves to the default as well. */
  lemma ExtraSegmentFallsBack()
    ensures Resolve(SiteRoutes(), HomePage, "/projects/42/extra") == HomePage
  {
    assert "/" + "projects" + "/" + "42" + "/" + "extra" == "/projects/42/extra";
    assert "/projects/42/extra" !in {"/", "/projects", "/contact", "/login", "/admin"};
    DetailPatternRejectsThreeSegments("projects", "42", "extra");
    OnlyDetailCouldMatch("/projects/42/extra");
  }
}

=== FILE: seo.dfy ===
/** The page metadata component (src/components/Seo.tsx): the site URL
    without its trailing slash, relative image paths made absolute, and the
    title, description, canonical URL, social image and robots directive
    derived from a page's properties. The build-time site URL, the window's
    origin, the current pathname and the active locale are inputs; the
    `<head>` writing itself is left to the framework. */
module Seo {
  import opened Wrappers
  import opened Strings
  import Translation

  /** `url.endsWith('/') ? url.slice(0, -1) : url`. */
  function WithoutTrailingSlash(url: string): (r: string)
    ensures IsSuffix("/", url) ==> r + "/" == url
    ensures !IsSuffix("/", url) ==> r == url
  {
    if IsSuffix("/", url) then url[..|url| - 1] else url
  }

  /** Adding a slash and removing it again gives back the URL. */
  lemma WithoutTrailingSlashUndoesSlash(url: string)
    ensures WithoutTrailingSlash(url + "/") == url
  {
    assert IsSuffix("/", url + "/");
    assert (url + "/")[..|url|] == url;
  }

  /** Only one slash is removed, so the function is not idempotent: `//`
      becomes `/`, and that becomes the empty string. */
  lemma WithoutTrailingSlashNotIdempotent()
    ensures WithoutTrailingSlash("//") == "/"
    ensures WithoutTrailingSlash(WithoutTrailingSlash("//")) == ""
  {
    assert IsSuffix("/", "//");
    assert IsSuffix("/", "/");
  }

  /** `c` is the lower-case ASCII letter `lower` in either case (the only
      characters a case-insensitive JavaScript pattern without the `u` flag
      folds onto an ASCII letter). */
  predicate SameLetter(c: char, lower: char)
    requires 'a' <= lower <= 'z'
  {
    c == lower || c as int == lower as int - 32
  }

  /** An ASCII upper-case letter as its lower-case form; every other
      character unchanged. */
  function LowerAscii(c: char): (l: char)
    ensures 'a' <= l <= 'z' ==> SameLetter(c, l)
    ensures !('A' <= c <= 'Z') ==> l == c
  {
    if 'A' <= c <= 'Z' then (c as int + 32) as char else c
  }

  /** The text with its ASCII letters in lower case. */
  function LowerAsciiText(u: string): (l: string)
    ensures |l| == |u|
    ensures forall k :: 0 <= k < |u| ==> l[k] == LowerAscii(u[k])
  {
    seq(|u|, k requires 0 <= k < |u| => LowerAscii(u[k]))
  }

  /** Lower-casing a character turns it into a given letter exactly when
      it is that letter in either case, and leaves every character it does
      not turn into a letter unchanged. */
  lemma LowerAsciiTextFolds(u: string)
    ensures forall k, c :: 0 <= k < |u| && 'a' <= c <= 'z' ==>
              (SameLetter(u[k], c) <==> LowerAsciiText(u)[k] == c)
    ensures forall k :: 0 <= k < |u| && !('a' <= LowerAsciiText(u)[k] <= 'z') ==>
              LowerAsciiText(u)[k] == u[k]
  {
  }

  /** `/^https?:\/\//i`: the text starts with `http://` or `https://`, the
      letters in any case. */
  predicate IsAbsolute(u: string): (m: bool)
    ensures m <==> IsPrefix("http://", LowerAsciiText(u)) || IsPrefix("https://", LowerAsciiText(u))
  {
    LowerAsciiTextFolds(u);
    PrefixByChars("http://", LowerAsciiText(u));
    PrefixByChars("https://", LowerAsciiText(u));
    && |u| >= 7
    && SameLetter(u[0], 'h') && SameLetter(u[1], 't') && SameLetter(u[2], 't') && SameLetter(u[3], 'p')
    && (|| (u[4] == ':' && u[5] == '/' && u[6] == '/')
        || (|u| >= 8 && SameLetter(u[4], 's') && u[5] == ':' && u[6] == '/' && u[7] == '/'))
  }

  /** Text starts with a prefix exactly when it agrees with it position by
      position. */
  lemma PrefixByChars(p: string, s: string)
    ensures IsPrefix(p, s) <==> |p| <= |s| && forall k :: 0 <= k < |p| ==> s[k] == p[k]
  {
    if |p| <= |s| && forall k :: 0 <= k < |p| ==> s[k] == p[k] {
      assert s[..|p|] == p;
    }
  }

  /** Absolute-ness depends only on the first eight characters. */
  lemma IsAbsoluteExtends(u: string, tail: string)
    requires IsAbsolute(u)
    ensures IsAbsolute(u + tail)
  {
    assert forall k :: 0 <= k < |u| ==> (u + tail)[k] == u[k];
  }

  /** `toAbsoluteUrl(siteUrl, u)`: an absolute URL is kept; otherwise `u` is
      placed after the site URL, with a `/` between the two unless `u` starts
      with one. Either way the result ends in `u`; when changed, it starts
      with the site URL and one `/`, and adds no other character. */
  function ToAbsoluteUrl(siteUrl: string, u: string): (r: string)
    ensures IsSuffix(u, r)
    ensures IsAbsolute(u) ==> r == u
    ensures !IsAbsolute(u) ==> IsPrefix(siteUrl + "/", r)
    ensures !IsAbsolute(u) ==> |r| == |siteUrl| + |u| + (if IsPrefix("/", u) then 0 else 1)
  {
    if IsAbsolute(u) then u
    else if IsPrefix("/", u) then siteUrl + u
    else siteUrl + "/" + u
  }

  /** With an absolute site URL the result is absolute, and converting it
      again changes nothing. */
  lemma ToAbsoluteUrlIdempotent(siteUrl: string, u: string)
    requires IsAbsolute(siteUrl)
    ensures IsAbsolute(ToAbsoluteUrl(siteUrl, u))
    ensures ToAbsoluteUrl(siteUrl, ToAbsoluteUrl(siteUrl, u)) == ToAbsoluteUrl(siteUrl, u)
  {
    if !IsAbsolute(u) {
      if IsPrefix("/", u) {
        IsAbsoluteExtends(siteUrl, u);
      } else {
        IsAbsoluteExtends(siteUrl, "/" + u);
        assert siteUrl + "/" + u == siteUrl + ("/" + u);
      }
    }
  }

  /** A scheme in mixed case is still recognised. */
  lemma MixedCaseSchemeAbsolute()
    ensures IsAbsolute("HtTpS://cdn/a.png")
  {
    var u := "HtTpS://cdn/a.png";
    assert u[0] == 'H' && u[1] == 't' && u[2] == 'T' && u[3] == 'p' && u[4] == 'S';
    assert u[5..8] == "://";
  }

  /** The scheme test ignores case; a relative path gets exactly one slash
      between the site URL and itself. */
  lemma ToAbsoluteUrlExamples(siteUrl: string)
    ensures ToAbsoluteUrl(siteUrl, "HtTpS://cdn/a.png") == "HtTpS://cdn/a.png"
    ensures ToAbsoluteUrl(siteUrl, "/image.png") == siteUrl + "/image.png"
    ensures ToAbsoluteUrl(siteUrl, "image.png") == siteUrl + "/image.png"
  {
    MixedCaseSchemeAbsolute();
    assert !IsAbsolute("/image.png");
    assert !IsAbsolute("image.png");
    assert IsPrefix("/", "/image.png");
    assert !IsPrefix("/", "image.png");
    assert siteUrl + "/" + "image.png" == siteUrl + "/image.png";
  }

  // ---------------------------------------------------------------------
  // The tags.

  /** The `og:type` of a page. */
  datatype OgType = Website | Article

  /** A page's properties; an absent one is `None`. */
  datatype SeoProps = SeoProps(
    title: Option<string>,
    description: Option<string>,
    imagePath: Option<string>,
    ogType: Option<OgType>,
    noindex: Option<bool>)

  /** Where the page runs: the build-time site URL, the window's origin when
      there is a window, the current pathname and the active locale. */
  datatype Environment = Environment(
    configuredUrl: Option<string>,
    origin: Option<string>,
    pathname: string,
    locale: Translation.Locale)

  /** The tags written into the document head. */
  datatype Tags = Tags(
    lang: string,
    title: string,
    description: string,
    canonical: Option<string>,
    ogType: OgType,
    ogImage: string,
    robots: string)

  const SiteName: string := "Aquawood Patagonia"
  const FallbackTitle: string := "Aquawood Patagonia — Bois rustique"
  const FallbackDescription: string :=
    "Custom handcrafted woodworking from Quebec, specializing in beautiful rustic tables and furniture."
  const DefaultImage: string := "/image.png"

  /** The raw site URL: the configured one when it is non-empty, else the
      window's origin, else "". */
  function SiteUrlRaw(env: Environment): (raw: string)
    ensures Given(env.configuredUrl) ==> raw == env.configuredUrl.value
    ensures !Given(env.configuredUrl) ==> raw == env.origin.GetOr("")
  {
    if env.configuredUrl.Some? && env.configuredUrl.value != "" then env.configuredUrl.value
    else if env.origin.Some? then env.origin.value
    else ""
  }

  /** The site URL, without one trailing slash. */
  function SiteUrl(env: Environment): (site: string)
    ensures site == "" <==> SiteUrlRaw(env) == "" || SiteUrlRaw(env) == "/"
    ensures IsSuffix("/", SiteUrlRaw(env)) ==> site + "/" == SiteUrlRaw(env)
    ensures !IsSuffix("/", SiteUrlRaw(env)) ==> site == SiteUrlRaw(env)
  {
    var raw := SiteUrlRaw(env);
    if raw == "" then "" else WithoutTrailingSlash(raw)
  }

  /** The text shown when a value is truthy (present and non-empty). */
  predicate Given(v: Option<string>) {
    v.Some? && v.value != ""
  }

  /** The tags of a page. The title is the page title followed by the site
      name, or the fixed fallback; the description is the page's own or the
      fixed fallback; the canonical URL exists exactly when there is a site
      URL, and is the site URL followed by the pathname; the social image is
      made absolute against the site URL when there is one and is the image
      path as given otherwise; robots forbid indexing exactly when asked. */
  function SeoTags(props: SeoProps, env: Environment): (t: Tags)
    ensures t.lang == Translation.Tag(env.locale)
    ensures Given(props.title) ==> t.title == props.title.value + " | " + SiteName
    ensures !Given(props.title) ==> t.title == FallbackTitle
    ensures Given(props.description) ==> t.description == props.description.value
    ensures !Given(props.description) ==> t.description == FallbackDescription
    ensures t.canonical.Some? <==> SiteUrl(env) != ""
    ensures t.canonical.Some? ==> t.canonical.value == SiteUrl(env) + env.pathname
    ensures t.ogType == props.ogType.GetOr(Website)
    ensures SiteUrl(env) == "" ==> t.ogImage == props.imagePath.GetOr(DefaultImage)
    ensures SiteUrl(env) != "" ==> t.ogImage == ToAbsoluteUrl(SiteUrl(env), props.imagePath.GetOr(DefaultImage))
    ensures t.robots == "noindex,nofollow" <==> props.noindex == Some(true)
    ensures t.robots == "index,follow" <==> props.noindex != Some(true)
  {
    var site := SiteUrl(env);
    var image := props.imagePath.GetOr(DefaultImage);
    Tags(
      Translation.Tag(env.locale),
      if Given(props.title) then props.title.value + " | " + SiteName else FallbackTitle,
      if Given(props.description) then props.description.value else FallbackDescription,
      if site != "" then Some(site + env.pathname) else None,
      props.ogType.GetOr(Website),
      if site != "" then ToAbsoluteUrl(site, image) else image,
      if props.noindex == Some(true) then "noindex,nofollow" else "index,follow")
  }

  /** A site URL that is a lone `/` vanishes: no canonical URL is written
      and the image path is used as given. */
  lemma LoneSlashSiteUrl(props: SeoProps, env: Environment)
    requires env.configuredUrl == Some("/")
    ensures SeoTags(props, env).canonical == None
    ensures SeoTags(props, env).ogImage == props.imagePath.GetOr(DefaultImage)
  {
  }

  /** Every page has a non-empty title naming the site and a non-empty
      description. */
  lemma TitleNamesSite(props: SeoProps, env: Environment)
    ensures Contains(SeoTags(props, env).title, SiteName)
    ensures SeoTags(props, env).description != ""
  {
    if Given(props.title) {
      EndsContain(props.title.value + " | ", SiteName);
    } else {
      assert OccursAt(FallbackTitle, SiteName, 0);
    }
  }

  /** A text contains its own ending. */
  lemma EndsContain(a: string, b: string)
    ensures Contains(a + b, b)
  {
    assert (a + b)[|a|..|a| + |b|] == b;
    assert OccursAt(a + b, b, |a|);
  }

  /** Dropping the site URL's trailing slash never costs the joined URL its
      scheme: the slash that joins the two takes its place. */
  lemma JoinedUrlAbsolute(raw: string, u: string)
    requires IsAbsolute(raw)
    ensures IsAbsolute(ToAbsoluteUrl(WithoutTrailingSlash(raw), u))
  {
    var site := WithoutTrailingSlash(raw);
    if !IsSuffix("/", raw) {
      ToAbsoluteUrlIdempotent(raw, u);
    } else if !IsAbsolute(u) {
      if IsPrefix("/", u) {
        assert site + u == raw + u[1..];
        IsAbsoluteExtends(raw, u[1..]);
      } else {
        assert site + "/" + u == raw + u;
        IsAbsoluteExtends(raw, u);
      }
    }
  }

  /** With an absolute configured site URL, the social image is always an
      absolute URL. */
  lemma AbsoluteSiteGivesAbsoluteImage(props: SeoProps, env: Environment)
    requires Given(env.configuredUrl) && IsAbsolute(env.configuredUrl.value)
    ensures IsAbsolute(SeoTags(props, env).ogImage)
  {
    JoinedUrlAbsolute(env.configuredUrl.value, props.imagePath.GetOr(DefaultImage));
  }
}

=== FILE: strings.dfy ===
/** The string operations of JavaScript that the modelled code relies on:
    `split` on a one-character separator, `startsWith`, `endsWith` and
    `includes`. Strings are sequences of characters; a `char` is a Unicode
    scalar value, which is one UTF-16 code unit of the source for text in
    the Basic Multilingual Plane. */
module Strings {

  /** `s.startsWith(p)`. */
  predicate IsPrefix(p: string, s: string) {
    |p| <= |s| && s[..|p|] == p
  }

  /** `s.endsWith(p)`. */
  predicate IsSuffix(p: string, s: string) {
    |p| <= |s| && s[|s| - |p|..] == p
  }

  /** `s.includes(sub)`: `sub` occurs somewhere in `s`. */
  predicate Contains(s: string, sub: string) {
    exists i | 0 <= i <= |s| - |sub| :: OccursAt(s, sub, i)
  }

  /** `sub` occurs in `s` starting at position `i`. */
  predicate OccursAt(s: string, sub: string, i: int)
    requires 0 <= i <= |s| - |sub|
  {
    s[i..i + |sub|] == sub
  }

  /** Cutting at the first separator is unambiguous: when neither front
      part holds `sep`, equal texts have equal fronts and equal backs. */
  lemma FirstSeparatorUnique(a: string, b: string, a': string, b': string, sep: char)
    requires sep !in a && sep !in a'
    requires a + [sep] + b == a' + [sep] + b'
    ensures a == a' && b == b'
  {
    SplitAfterPart(a, sep, b);
    SplitAfterPart(a', sep, b');
    var parts, parts' := [a] + Split(b, sep), [a'] + Split(b', sep);
    assert parts == parts';
    assert a == parts[0] && a' == parts'[0];
    assert Split(b, sep) == parts[1..] == parts'[1..] == Split(b', sep);
  }

  /** Glues the parts back together with `sep` between consecutive parts
      (`parts.join(sep)`). */
  function Join(parts: seq<string>, sep: char): string
    requires |parts| >= 1
    decreases |parts|
  {
    if |parts| == 1 then parts[0] else parts[0] + [sep] + Join(parts[1..], sep)
  }

  /** `s.split(sep)` for a one-character separator: the maximal pieces of `s`
      between separators, so there is always one more part than there are
      separators, and the empty string splits into one empty part. */
  function Split(s: string, sep: char): (parts: seq<string>)
    ensures |parts| >= 1
    ensures forall k :: 0 <= k < |parts| ==> sep !in parts[k]
    ensures Join(parts, sep) == s
    decreases |s|
  {
    if |s| == 0 then [""]
    else if s[0] == sep then
      var rest := Split(s[1..], sep);
      assert s == [sep] + s[1..];
      [""] + rest
    else
      var rest := Split(s[1..], sep);
      var parts := [[s[0]] + rest[0]] + rest[1..];
      assert parts[1..] == rest[1..];
      assert s == [s[0]] + s[1..];
      parts
  }

  /** The last element of a non-empty sequence of parts (`parts.pop()`). */
  function Last(parts: seq<string>): string
    requires |parts| >= 1
  {
    parts[|parts| - 1]
  }

  /** A string without the separator splits into itself alone. */
  lemma {:induction false} SplitWithoutSep(w: string, sep: char)
    requires sep !in w
    ensures Split(w, sep) == [w]
    decreases |w|
  {
    if |w| > 0 {
      SplitWithoutSep(w[1..], sep);
      assert [w[0]] + w[1..] == w;
    }
  }

  /** A separator right after a separator-free prefix closes exactly one part. */
  lemma {:induction false} SplitAfterPart(w: string, sep: char, rest: string)
    requires sep !in w
    ensures Split(w + [sep] + rest, sep) == [w] + Split(rest, sep)
    decreases |w|
  {
    var s := w + [sep] + rest;
    if |w| == 0 {
      assert s[1..] == rest;
    } else {
      assert s[1..] == w[1..] + [sep] + rest;
      SplitAfterPart(w[1..], sep, rest);
      assert [w[0]] + w[1..] == w;
    }
  }

  /** Split undoes Join whenever no part contains the separator; with the
      `ensures` of Split this makes the two mutually inverse. */
  lemma {:induction false} SplitJoin(parts: seq<string>, sep: char)
    requires |parts| >= 1
    requires forall k :: 0 <= k < |parts| ==> sep !in parts[k]
    ensures Split(Join(parts, sep), sep) == parts
    decreases |parts|
  {
    if |parts| == 1 {
      SplitWithoutSep(parts[0], sep);
    } else {
      SplitJoin(parts[1..], sep);
      SplitAfterPart(parts[0], sep, Join(parts[1..], sep));
      assert [parts[0]] + parts[1..] == parts;
    }
  }

  /** Appending one more part to a join appends one separator and the part. */
  lemma {:induction false} JoinAppend(parts: seq<string>, last: string, sep: char)
    requires |parts| >= 1
    ensures Join(parts + [last], sep) == Join(parts, sep) + [sep] + last
    decreases |parts|
  {
    if |parts| == 1 {
      assert (parts + [last])[1..] == [last];
    } else {
      assert (parts + [last])[1..] == parts[1..] + [last];
      JoinAppend(parts[1..], last, sep);
    }
  }

  /** The text after the last separator is the last part of the split. */
  lemma SplitLastPart(prefix: string, sep: char, last: string)
    requires sep !in last
    ensures Last(Split(prefix + [sep] + last, sep)) == last
    ensures Split(prefix + [sep] + last, sep) == Split(prefix, sep) + [last]
  {
    var ps := Split(prefix, sep);
    JoinAppend(ps, last, sep);
    SplitJoin(ps + [last], sep);
  }

  /** The position of the last separator in `s`. */
  function LastIndex(s: string, sep: char): (j: nat)
    requires sep in s
    ensures j < |s| && s[j] == sep && sep !in s[j + 1..]
    decreases |s|
  {
    if s[|s| - 1] == sep then |s| - 1
    else
      var init := s[..|s| - 1];
      assert sep in init by {
        var i :| 0 <= i < |s| && s[i] == sep;
        assert init[i] == sep;
      }
      var j := LastIndex(init, sep);
      assert s[j + 1..] == init[j + 1..] + [s[|s| - 1]];
      j
  }

  /** When the separator occurs in `s`, the last part of its split is exactly
      what follows the last separator, so `[sep] + last` is a suffix of `s`. */
  lemma LastPartIsSuffix(s: string, sep: char)
    requires sep in s
    ensures IsSuffix([sep] + Last(Split(s, sep)), s)
  {
    var j := LastIndex(s, sep);
    assert s == s[..j] + [sep] + s[j + 1..];
    SplitLastPart(s[..j], sep, s[j + 1..]);
    assert s[|s| - (|s| - j)..] == [sep] + s[j + 1..];
  }
}

=== FILE: translation.dfy ===
/** The translation context (src/contexts/TranslationContext.tsx): the active
    locale, chosen at start-up from durable storage and changed by
    `setLocale`, and the dotted-key lookup `t`. Durable storage
    (`localStorage`) is an explicit string-to-string map; the dictionaries
    are data, of which a few sample entries appear below. */
module Translation {
  import opened Strings
  import opened Wrappers

  /** The three supported locales. */
  datatype Locale = En | Fr | Es

  /** The tag a locale is stored and compared under. */
  function Tag(l: Locale): string {
    match l
    case En => "en"
    case Fr => "fr"
    case Es => "es"
  }

  /** The storage key the active locale is persisted under. */
  const LocaleKey: string := "locale"

  /** The initial locale for a persisted value: that locale when the value is
      exactly one of the three tags, English otherwise (also when nothing is
      stored). */
  function ParseLocale(saved: Option<string>): (l: Locale)
    ensures saved == Some(Tag(l)) || (l == En && forall m :: saved != Some(Tag(m)))
  {
    if saved == Some("en") then En
    else if saved == Some("fr") then Fr
    else if saved == Some("es") then Es
    else En
  }

  /** What `localStorage.getItem('locale')` returns. */
  function Saved(storage: map<string, string>): Option<string> {
    if LocaleKey in storage then Some(storage[LocaleKey]) else None
  }

  /** The locale the provider starts with. */
  function InitialLocale(storage: map<string, string>): Locale {
    ParseLocale(Saved(storage))
  }

  /** The provider's state: the active locale and the durable storage. */
  datatype Prefs = Prefs(locale: Locale, storage: map<string, string>)

  /** `setLocale(l)`: makes `l` active and writes its tag under `locale`,
      leaving every other stored key as it was. */
  function SetLocale(p: Prefs, l: Locale): (q: Prefs)
    ensures q.locale == l
    ensures Saved(q.storage) == Some(Tag(l))
    ensures forall k :: k != LocaleKey ==> (k in q.storage <==> k in p.storage)
    ensures forall k :: k != LocaleKey && k in p.storage ==> q.storage[k] == p.storage[k]
  {
    Prefs(l, p.storage[LocaleKey := Tag(l)])
  }

  /** A reload after `setLocale(l)` starts in `l` again. */
  lemma SetLocaleSurvivesReload(p: Prefs, l: Locale)
    ensures InitialLocale(SetLocale(p, l).storage) == l
  {
  }

  // ---------------------------------------------------------------------
  // Dictionaries and `t`.

  /** A translation dictionary: a string, or an object of named entries. */
  datatype Dict = Leaf(text: string) | Node(entries: map<string, Dict>)

  /** One dictionary per locale. */
  datatype Catalog = Catalog(en: Dict, fr: Dict, es: Dict) {
    /** The dictionary of locale `l`. */
    function For(l: Locale): Dict {
      match l
      case En => en
      case Fr => fr
      case Es => es
    }
  }

  /** The loop of `t`: descend one segment at a time, each step requiring
      the current value to be an object holding that segment. None means the
      loop gave up (a missing segment, or a string met before the segments
      ran out). */
  function Walk(d: Dict, segments: seq<string>): (r: Option<Dict>)
    ensures |segments| == 0 ==> r == Some(d)
    ensures |segments| > 0 && d.Leaf? ==> r.None?
    ensures |segments| > 0 && d.Node? && segments[0] !in d.entries ==> r.None?
    decreases |segments|
  {
    if |segments| == 0 then Some(d)
    else match d
      case Leaf(_) => None
      case Node(entries) =>
        if segments[0] in entries then Walk(entries[segments[0]], segments[1..]) else None
  }

  /** `t(key)` under locale `l`: the string the dotted path leads to in that
      locale's dictionary, and the key itself on any miss. The answer is
      always either the key or a string stored somewhere in the active
      dictionary. */
  function Translate(catalog: Catalog, l: Locale, key: string): (r: string)
    ensures r == key || exists path :: Walk(catalog.For(l), path) == Some(Leaf(r))
  {
    var found := Walk(catalog.For(l), Split(key, '.'));
    if found.Some? && found.value.Leaf? then
      assert Walk(catalog.For(l), Split(key, '.')) == Some(Leaf(found.value.text));
      found.value.text
    else
      key
  }

  /** Walking a concatenation walks the first part, then the second from
      wherever the first ended. */
  lemma {:induction false} WalkAppend(d: Dict, a: seq<string>, b: seq<string>)
    ensures Walk(d, a + b) == match Walk(d, a) case None => None case Some(e) => Walk(e, b)
    decreases |a|
  {
    if |a| == 0 {
      assert a + b == b;
    } else if d.Node? && a[0] in d.entries {
      assert (a + b)[1..] == a[1..] + b;
      WalkAppend(d.entries[a[0]], a[1..], b);
    }
  }

  /** A lookup gives back the key when, after some prefix of its segments,
      the walk stands on a string with segments left over, or on an object
      that lacks the next segment. */
  lemma TranslateMissReturnsKey(catalog: Catalog, l: Locale, key: string, k: nat)
    requires k < |Split(key, '.')|
    requires match Walk(catalog.For(l), Split(key, '.')[..k])
             case None => false
             case Some(Leaf(_)) => true
             case Some(Node(entries)) => Split(key, '.')[k] !in entries
    ensures Translate(catalog, l, key) == key
  {
    var segments := Split(key, '.');
    assert segments == segments[..k] + segments[k..];
    WalkAppend(catalog.For(l), segments[..k], segments[k..]);
  }

  /** Every string of a dictionary is found again by its dotted key: a path
      of dot-free segments that leads to a string translates to that string. */
  lemma LeafFoundByDottedKey(catalog: Catalog, l: Locale, path: seq<string>, s: string)
    requires |path| >= 1
    requires forall i :: 0 <= i < |path| ==> '.' !in path[i]
    requires Walk(catalog.For(l), path) == Some(Leaf(s))
    ensures Translate(catalog, l, Join(path, '.')) == s
  {
    SplitJoin(path, '.');
  }

  /** A key that leads to an object rather than a string gives back the key. */
  lemma ObjectKeyReturnsKey(catalog: Catalog, l: Locale, key: string)
    requires Walk(catalog.For(l), Split(key, '.')).Some?
    requires Walk(catalog.For(l), Split(key, '.')).value.Node?
    ensures Translate(catalog, l, key) == key
  {
  }

  // ---------------------------------------------------------------------
  // Sample dictionaries (a few entries of src/locale/*.ts).

  /** English sample: `nav.home` and `contact.title`, and no customisation
      entries. */
  function SampleEn(): Dict {
    Node(map[
      "nav" := Node(map["home" := Leaf("Home")]),
      "contact" := Node(map["title" := Leaf("Get In Touch")])])
  }

  /** French sample: the same entries plus `contact.customizationTitle`. */
  function SampleFr(): Dict {
    Node(map[
      "nav" := Node(map["home" := Leaf("Accueil")]),
      "contact" := Node(map[
        "title" := Leaf("Contactez-Nous"),
        "customizationTitle" := Leaf("Options Personnalisables")])])
  }

  /** Spanish sample. */
  function SampleEs(): Dict {
    Node(map[
      "nav" := Node(map["home" := Leaf("Inicio")]),
      "contact" := Node(map[
        "title" := Leaf("Póngase en Contacto"),
        "customizationTitle" := Leaf("Opciones Personalizables")])])
  }

  function SampleCatalog(): Catalog {
    Catalog(SampleEn(), SampleFr(), SampleEs())
  }

  /** Splitting a two-segment dotted key. */
  lemma SplitDottedPair(a: string, b: string)
    requires '.' !in a && '.' !in b
    ensures Split(a + "." + b, '.') == [a, b]
  {
    SplitLastPart(a, '.', b);
    SplitWithoutSep(a, '.');
  }

  /** A two-segment key looks up its two segments in turn. */
  lemma TranslatePair(catalog: Catalog, l: Locale, a: string, b: string)
    requires '.' !in a && '.' !in b
    ensures Translate(catalog, l, a + "." + b) ==
      match Walk(catalog.For(l), [a, b]) case Some(Leaf(s)) => s case _ => a + "." + b
  {
    SplitDottedPair(a, b);
  }

  /** The two-segment sample key splits into its segments. */
  lemma SampleKeySplitPair()
    ensures Split("contact.customizationTitle", '.') == ["contact", "customizationTitle"]
  {
    assert "contact" + "." + "customizationTitle" == "contact.customizationTitle";
    SplitDottedPair("contact", "customizationTitle");
  }

  /** The three-segment sample key splits into its segments. */
  lemma SampleKeySplitTriple()
    ensures Split("nav.home.x", '.') == ["nav", "home", "x"]
  {
    assert "nav" + "." + "home" == "nav.home";
    assert "nav.home" + "." + "x" == "nav.home.x";
    SplitDottedPair("nav", "home");
    SplitLastPart("nav.home", '.', "x");
  }

  /** The walks the sample lookups perform. */
  lemma SampleWalks()
    ensures Walk(SampleEn(), ["contact", "customizationTitle"]) == None
    ensures Walk(SampleFr(), ["contact", "customizationTitle"]) == Some(Leaf("Options Personnalisables"))
    ensures Walk(SampleEn(), ["nav", "home", "x"]) == None
  {
  }

  /** The same key can exist in one locale and be missing in another: under
      English `contact.customizationTitle` gives back the key, under French
      the French text. Descending past a string (`nav.home.x`) and stopping
      on an object (`nav`) both give back the key. */
  lemma SampleLookups()
    ensures Translate(SampleCatalog(), En, "contact.customizationTitle") == "contact.customizationTitle"
    ensures Translate(SampleCatalog(), Fr, "contact.customizationTitle") == "Options Personnalisables"
    ensures Translate(SampleCatalog(), En, "nav.home.x") == "nav.home.x"
    ensures Translate(SampleCatalog(), En, "nav") == "nav"
  {
    SampleKeySplitPair();
    SampleKeySplitTriple();
    SampleWalks();
    SplitWithoutSep("nav", '.');
  }
}

=== FILE: url_fragment.dfy ===
/** How a browser stores a URL fragment (the WHATWG URL Standard, the
    "fragment state" of the basic URL parser): ASCII tab and newline are
    removed, and every code point of the fragment percent-encode set is
    replaced by the percent-encoding of its UTF-8 bytes. This is what the
    hash router's paths go through when they are written to
    `location.hash` or followed as `#...` links. */
module UrlFragment {

  /** ASCII tab or newline, removed from any input before parsing. */
  predicate IsTabOrNewline(c: char) {
    c == '\t' || c == '\n' || c == '\r'
  }

  /** A C0 control or space, trimmed from both ends of a whole URL. */
  predicate IsC0OrSpace(c: char) {
    c <= ' '
  }

  /** The fragment percent-encode set: the C0 controls, every code point
      above `~`, and space, `"`, `<`, `>` and the backtick. */
  predicate InFragmentSet(c: char) {
    c < ' ' || c > '~' || c == ' ' || c == '"' || c == '<' || c == '>' || c == '`'
  }

  /** Every character is stored as it is. */
  predicate Verbatim(s: string) {
    forall k :: 0 <= k < |s| ==> !InFragmentSet(s[k])
  }

  /** The upper-case hexadecimal digits the encoding writes. */
  const HexDigits: string := "0123456789ABCDEF"

  /** The UTF-8 bytes of a code point. */
  function Utf8(c: char): (bytes: seq<nat>)
    ensures 1 <= |bytes| <= 4
    ensures forall k :: 0 <= k < |bytes| ==> bytes[k] < 256
    ensures |bytes| == 1 <==> c as int < 0x80
  {
    var n := c as int;
    if n < 0x80 then [n]
    else if n < 0x800 then [0xC0 + n / 64, 0x80 + n % 64]
    else if n < 0x1_0000 then [0xE0 + n / 4096, 0x80 + (n / 64) % 64, 0x80 + n % 64]
    else [0xF0 + n / 262144, 0x80 + (n / 4096) % 64, 0x80 + (n / 64) % 64, 0x80 + n % 64]
  }

  /** The digits and the `%` sign are stored verbatim. */
  lemma HexVerbatim()
    ensures Verbatim(HexDigits) && !InFragmentSet('%')
  {
  }

  /** Two verbatim pieces make a verbatim text. */
  lemma VerbatimConcat(a: string, b: string)
    requires Verbatim(a) && Verbatim(b)
    ensures Verbatim(a + b)
  {
    forall k | 0 <= k < |a + b|
      ensures !InFragmentSet((a + b)[k])
    {
      if k < |a| {
        assert (a + b)[k] == a[k];
      } else {
        assert (a + b)[k] == b[k - |a|];
      }
    }
  }

  /** `%XX` for each byte, with upper-case hexadecimal digits. */
  function PercentBytes(bytes: seq<nat>): (r: string)
    requires forall k :: 0 <= k < |bytes| ==> bytes[k] < 256
    ensures |r| == 3 * |bytes|
    ensures forall k :: 0 <= k < |r| ==> r[k] == '%' || r[k] in HexDigits
    ensures Verbatim(r)
    decreases |bytes|
  {
    if |bytes| == 0 then ""
    else
      var head := ['%', HexDigits[bytes[0] / 16], HexDigits[bytes[0] % 16]];
      var tail := PercentBytes(bytes[1..]);
      HexVerbatim();
      VerbatimConcat(head, tail);
      head + tail
  }

  /** What one character of the input becomes in the stored fragment. */
  function EncodeChar(c: char): (r: string)
    ensures IsTabOrNewline(c) ==> r == ""
    ensures !InFragmentSet(c) ==> r == [c]
    ensures InFragmentSet(c) && !IsTabOrNewline(c) ==> 3 <= |r| <= 12 && r[0] == '%'
    ensures forall k :: 0 <= k < |r| ==> FromInput(r[k], [c])
    ensures Verbatim(r)
  {
    if IsTabOrNewline(c) then ""
    else if InFragmentSet(c) then PercentBytes(Utf8(c))
    else [c]
  }

  /** A character of a stored fragment that comes from the input `s`: a
      `%`, a hexadecimal digit, or a character of `s`. */
  predicate FromInput(c: char, s: string) {
    c == '%' || c in HexDigits || c in s
  }

  /** The stored fragment for an input. Every character of the result is
      stored verbatim, and is a `%`, a hexadecimal digit or a character of
      the input. */
  function Encode(s: string): (r: string)
    ensures Verbatim(r)
    ensures forall k :: 0 <= k < |r| ==> FromInput(r[k], s)
    decreases |s|
  {
    if |s| == 0 then ""
    else
      var head, tail := EncodeChar(s[0]), Encode(s[1..]);
      VerbatimConcat(head, tail);
      FromInputConcat(s, head, tail);
      head + tail
  }

  /** The characters of the first character's encoding and of the rest's
      come from the whole input. */
  lemma FromInputConcat(s: string, head: string, tail: string)
    requires |s| > 0
    requires forall k :: 0 <= k < |head| ==> FromInput(head[k], [s[0]])
    requires forall k :: 0 <= k < |tail| ==> FromInput(tail[k], s[1..])
    ensures forall k :: 0 <= k < |head + tail| ==> FromInput((head + tail)[k], s)
  {
    forall k | 0 <= k < |head + tail|
      ensures FromInput((head + tail)[k], s)
    {
      if k < |head| {
        assert (head + tail)[k] == head[k];
        assert s[0] in s;
      } else {
        assert (head + tail)[k] == tail[k - |head|];
        if tail[k - |head|] in s[1..] {
          var j :| 0 <= j < |s[1..]| && s[1..][j] == tail[k - |head|];
          assert s[j + 1] == tail[k - |head|];
        }
      }
    }
  }

  /** Encoding goes character by character, so it distributes over
      concatenation. */
  lemma {:induction false} EncodeAppend(a: string, b: string)
    ensures Encode(a + b) == Encode(a) + Encode(b)
    decreases |a|
  {
    if |a| == 0 {
      assert a + b == b;
    } else {
      assert (a + b)[0] == a[0];
      assert (a + b)[1..] == a[1..] + b;
      EncodeAppend(a[1..], b);
    }
  }

  /** Text whose characters are all stored verbatim is stored unchanged. */
  lemma {:induction false} EncodeVerbatim(s: string)
    requires Verbatim(s)
    ensures Encode(s) == s
    decreases |s|
  {
    if |s| > 0 {
      EncodeVerbatim(s[1..]);
      assert [s[0]] + s[1..] == s;
    }
  }

  /** Only the middle of a text between two verbatim pieces changes. */
  lemma EncodeSplice(a: string, m: string, b: string)
    requires Verbatim(a) && Verbatim(b)
    ensures Encode(a + m + b) == a + Encode(m) + b
  {
    EncodeAppend(a + m, b);
    EncodeAppend(a, m);
    EncodeVerbatim(a);
    EncodeVerbatim(b);
  }

  /** Encoding adds no `/` to a text without one. */
  lemma EncodeAddsNoSlash(s: string)
    requires '/' !in s
    ensures '/' !in Encode(s)
  {
    var r := Encode(s);
    assert '/' !in HexDigits;
    forall k | 0 <= k < |r|
      ensures r[k] != '/'
    {
      assert FromInput(r[k], s);
    }
  }

  /** Trimming the end adds no `/` to a text without one. */
  lemma TrimEndAddsNoSlash(s: string)
    requires '/' !in s
    ensures '/' !in TrimEnd(s)
  {
    var t := TrimEnd(s);
    forall k | 0 <= k < |t|
      ensures t[k] != '/'
    {
      assert t[k] == s[k];
    }
  }

  /** Storing a stored fragment again changes nothing. */
  lemma EncodeIdempotent(s: string)
    ensures Encode(Encode(s)) == Encode(s)
  {
    EncodeVerbatim(Encode(s));
  }

  /** A space is stored as `%20`. */
  lemma EncodeSpace()
    ensures Encode(" ") == "%20"
  {
    assert Utf8(' ') == [32];
  }

  /** A letter beyond ASCII is stored as the percent-encoding of its two
      UTF-8 bytes. */
  lemma EncodeAccent()
    ensures Encode("é") == "%C3%A9"
  {
    assert Utf8('é') == [0xC3, 0xA9];
  }

  /** The input with its trailing C0 controls and spaces removed. */
  function TrimEnd(s: string): (r: string)
    ensures |r| <= |s| && r == s[..|r|]
    ensures forall k :: |r| <= k < |s| ==> IsC0OrSpace(s[k])
    ensures |r| == 0 || !IsC0OrSpace(r[|r| - 1])
    decreases |s|
  {
    if |s| > 0 && IsC0OrSpace(s[|s| - 1]) then TrimEnd(s[..|s| - 1]) else s
  }

  /** Trailing trimming never reaches back past a character it keeps. */
  lemma {:induction false} TrimEndAfter(a: string, b: string)
    requires |a| > 0 && !IsC0OrSpace(a[|a| - 1])
    ensures TrimEnd(a + b) == a + TrimEnd(b)
    decreases |b|
  {
    if |b| == 0 {
      assert a + b == a;
    } else if IsC0OrSpace(b[|b| - 1]) {
      assert (a + b)[..|a + b| - 1] == a + b[..|b| - 1];
      TrimEndAfter(a, b[..|b| - 1]);
    }
  }
}

=== FILE: wrappers.dfy ===
/** Option and Result, the two failure-carrying shapes the model uses for
    JavaScript's `null`/`undefined` and for thrown errors. */
module Wrappers {

  /** A value that may be absent (`null` or `undefined` in the source). */
  datatype Option<+T> = None | Some(value: T) {

    /** The wrapped value, or `default` when absent. */
    function GetOr(default: T): T {
      match this
      case Some(v) => v
      case None => default
    }
  }

  /** The outcome of an operation that may fail with an error message. */
  datatype Result<+R, +E> = Success(value: R) | Failure(error: E)
}
